=== FILE: README.md ===
# Go-Back-N sender, modelled in Dafny

A model of the protocol logic of `Sender.java`, the sending side of a
Go-Back-N transfer of a file over UDP. The sender frames the file into
packets with a two-byte big-endian sequence header. A send thread admits
packets into a window of `windowSizeN` and retransmits the window when it is
full. An acknowledgment thread moves the window base on each cumulative ACK
and starts or stops the single timer. The main thread polls the timer until
`lastACK == seqNo - 1`, then sends the two-byte sentinel `0x00 0x00`.

The model is functional. The static fields are one immutable record
(`Window.State`). Each stretch of a thread's code between two points where
another thread gets to run in practice is an atomic step function on it. For
the send loop those points are its window test and the `sleep` before
`retransmission`. A full window therefore takes two events: `SendIteration`
starts the sleep, and `Wake` runs `retransmission` on the state as it is after
whatever ACKs arrived meanwhile. For the main loop they are its test
`lastACK != seqNo - 1` and the `delay` before `checkTimeout`: `LoopTest`
starts the delay, and `Poll` runs `checkTimeout` after it, whatever ACKs
arrived meanwhile. For the acknowledgment thread the point is the blocking
`receive`, so each `AckArrival` is one iteration. An interleaving of the
threads at that grain is a sequence of `Transfer.Event`s, and the invariants
are proved over every such sequence.

Modules:

- `Framing` (`framing.dfy`): bytes, `createHeader`, the ACK decoder, the
  sentinel, `createPacket`, the read buffer, the packet table and
  `createAllPackets`.
- `Timer` (`timer.dfy`): `startTimer`, `stopTimer`, `updateElapsedTime`,
  `checkTimeout`, and the main thread's repeated polls.
- `Window` (`window.dfy`): the shared state, `sendPacket`, the send loop's
  admission and `retransmission`, and the ACK thread's step.
- `Transfer` (`transfer.dfy`): startup, events, runs, the invariants and
  termination.
- `Options` (`options.dfy`): `Option`.

The model follows the code as written where it differs from an idealised
Go-Back-N sender:

- The whole 1022-byte buffer is framed whatever `read` returned. Every packet
  is 1024 bytes, and the last one carries the zeros of the fresh buffer
  (`Framing.PayloadsArePaddedFile`).
- There is no stale-ACK guard. An ACK older than `lastACK` moves `base` back
  (`Window.StaleAckMovesBaseBack`). The bound `nextSeqNumber - base <=
  windowSizeN` therefore holds only under the explicit assumption that ACKs
  never go backwards (`Transfer.AcksNeverBack`, `Transfer.RunKeepsBound`).
- `retransmission` loops from `base` to `base + windowSizeN` inclusive. On a
  full window it also sends `nextSeqNumber`, a packet not yet admitted, so
  `windowSizeN + 1` packets go out (`Window.RetransmitOverreach`).
- `retransmission` runs after the sleep and reads `base` then, not when the
  window was found full. If ACKs arrived during the sleep, the window has
  moved up and up to `windowSizeN + 1` packets never admitted go out, while
  `nextSeqNumber` stays where it was. With `base` still at most
  `nextSeqNumber`, the last `base + windowSizeN - nextSeqNumber + 1` of them
  are never admitted (`Window.RetransmitBeyondNextSeq`,
  `Transfer.SleepingSenderRun`). When an ACK of an earlier extra packet
  arrives during the sleep, `base` is past `nextSeqNumber` and all
  `windowSizeN + 1` are (`Window.RetransmitPastNextSeq`,
  `Transfer.LateAcksRun`). Only when nothing happens during the sleep is the
  iteration the single step `Window.SendLoopStep` (`Transfer.SleepThenWake`).
- The ACK thread does not compare an ACK with `nextSeqNumber`. A correct
  receiver that acknowledges the extra packet of a full-window
  retransmission moves `base` to `nextSeqNumber + 1`
  (`Window.OverreachAckPassesNextSeq`, `Transfer.OverreachRun`). So
  `base <= nextSeqNumber` fails on correct runs. The model proves it only
  under the stronger assumption that every processed ACK lies in
  `lastACK .. nextSeqNumber - 1` (`Transfer.WellBehaved`). Once `base` has
  passed `nextSeqNumber`, the send loop can even send a packet again after
  every packet has been acknowledged (`Transfer.OverreachRun`); with
  `base <= nextSeqNumber` it sends nothing more
  (`Transfer.NoDataAfterAllAcked`).
- A repeated ACK does not change the window, but it restarts the timer
  (`Window.DuplicateAck`).
- `updateElapsedTime` adds `now - startTime` on every poll and never moves
  `startTime`, so successive polls add overlapping intervals
  (`Timer.PollsAccumulate`). `checkTimeout` ignores whether the timer is
  working.
- The `timeout` flag is written by `checkTimeout` and cleared by
  `retransmission`, but nothing reads it. The send loop retransmits after
  every `sleep` on a full window.
- The main loop's `checkTimeout` runs after its `delay` whatever happened
  during it. When the last ACK arrives during that delay and stops the
  timer, the check still adds `now - startTime` to `elapsedTime` and may
  raise `timeout`; the sentinel then goes out after the next loop test
  (`Transfer.FinalAckDuringDelay`).
- The header keeps 16 bits. Packet number 65536 gets the header `0x00 0x00`,
  the same bytes as the sentinel (`Framing.HeaderIsSentinel`).
- A decoded ACK is always below 65536, so with 65536 packets or more
  `lastACK == seqNo - 1` never holds. The ACK thread and the main loop then
  never stop, and the sentinel is never sent
  (`Transfer.NoTerminationPast16Bits`).

Java bytes are signed. A `Framing.Byte` is the unsigned value `b & 0xff`,
which is the only form in which the sender uses a byte. `createHeader`'s
`(n >> 8) & 0xFF` and `n & 0xFF` are `(n / 256) % 256` and `n % 256` in
Dafny. With the positive divisor 256, Dafny's Euclidean `/` and `%` agree with
Java's arithmetic shift and mask for every `int`, including negative ones.

`base`, `nextSeqNumber` and `seqNo` have the type `Window.Pos` (at least 1).
The code never makes them smaller, because a decoded ACK is at least 0. This
rules out `sendPacket(0)`, which would throw in `packets.get(-1)` and which no
caller can reach.

## Model

| member | source | states |
|---|---|---|
| Framing.CreateHeader | Sender.java:47-53 | the header is two bytes: first the high byte of the number's 16 low bits, then its low byte |
| Framing.HeaderRoundTrip | Sender.java:47-53 | decoding `createHeader(n)` with the ACK decoder gives `n mod 65536` for every int `n`, and exactly `n` for `0 <= n < 65536` |
| Framing.DecodeAck | Sender.java:167 | the decoded ACK is always in `0 .. 65535` |
| Framing.DecodeThenEncode | Sender.java:167 | the decoder is injective: re-encoding a decoded two-byte buffer gives the same bytes |
| Framing.ReceiveBuffer | Sender.java:164-166 | the two-byte receive buffer holds the datagram's first bytes, and zeros where the datagram is shorter |
| Framing.EndOfTransfer | Sender.java:257-260 | the end-of-transfer datagram is exactly `[0, 0]` and decodes to 0 |
| Framing.HeaderIsSentinel | Sender.java:257-260 | the sentinel is `createHeader(0)`; a header equals it iff its number is a multiple of 65536 |
| Framing.CreatePacket | Sender.java:56-63 | the packet is two bytes longer than `data`, its first two bytes are `createHeader(seqNo)`, the rest is `data` unchanged, and `seqNo` grows by exactly 1 |
| Framing.ParseCreatePacket | Sender.java:56-63 | parsing a created packet gives back its sequence number (mod 65536) and its data |
| Framing.ReadBuffer | Sender.java:75-77 | the buffer after a read is 1022 bytes: the bytes read, then zeros |
| Framing.PacketTable | Sender.java:73-91 | one packet per read; packet `i` is 1024 bytes, has header `createHeader(seqNo + i)` and carries the whole read buffer |
| Framing.CreateAllPackets | Sender.java:66-95 | the loop that reads until end of file builds the packet table numbered from 1, and leaves `seqNo - 1 == packets.size()` |
| Framing.PacketTableSnoc | Sender.java:83-84 | framing one more read appends one packet numbered after all earlier ones |
| Framing.PacketNumbering | Sender.java:84 | the packet at list index `i` is 1024 bytes, carries sequence number `i + 1` (mod 65536), and its payload starts with the bytes read |
| Framing.FileReadsCover | Sender.java:73-82 | the full-buffer reads of a file cover it exactly, in order, and their number is the file length divided by 1022, rounded up |
| Framing.PayloadsArePaddedFile | Sender.java:75-83 | the payloads of the table, concatenated, are the file followed by the zero padding up to a multiple of 1022 bytes |
| Framing.ThreePacketFile | Sender.java:73-91 | a 2500-byte file gives three 1024-byte packets numbered 1, 2, 3, with 456 bytes of the file in the last |
| Timer.Start | Sender.java:185-191 | `startTimer` sets `timerIsWorking`, zeroes `elapsedTime`, and records `now` as the start instant |
| Timer.Stop | Sender.java:193-197 | `stopTimer` clears `timerIsWorking` and zeroes `elapsedTime` |
| Timer.UpdateElapsed | Sender.java:209-212 | `elapsedTime` grows by the time since the start instant |
| Timer.CheckTimeout | Sender.java:199-206 | `timeout` becomes true iff the updated `elapsedTime` reaches `retransmissionTimeout` |
| Timer.PollsAccumulate | Sender.java:237-241 | after any series of polls, `elapsedTime` has grown by the sum of the intervals from the start instant to each poll |
| Timer.TimeoutAfterPolls | Sender.java:199-212 | after a start and a series of polls, `timeout` is raised iff those intervals add up to `retransmissionTimeout` |
| Timer.TimeoutFires | Sender.java:237-241 | with a clock that never runs backwards, a poll at least `retransmissionTimeout` after the start raises `timeout` |
| Window.Initial | Sender.java:23-38 | at the start `base == lastACK + 1 == nextSeqNumber`, `seqNo - 1` is the packet count, nothing is sent and the timer is idle |
| Window.SendPacket | Sender.java:98-105 | for `1 <= n <= packets.size()` it selects `packets[n - 1]`; for a larger `n` it selects nothing |
| Window.Transmit | Sender.java:98-105 | one `sendPacket(n)` puts at most one datagram, `Data(n)`, on the wire, and does so iff the table has packet `n` |
| Window.SendRange | Sender.java:115-117 | the loop sends exactly the numbers from `base` up to `min(base + windowSizeN, packets.size())`, each once, in increasing order |
| Window.CanAdmit | Sender.java:133 | the send loop's window test; `Transfer.NextSendLoop` states that a packet is admitted exactly when it holds and that the sender sleeps exactly when it does not |
| Window.AllAcked | Sender.java:237 | the condition `lastACK == seqNo - 1` on which the main loop (and, at line 160, the acknowledgment thread) stops; `Transfer.SentinelOnlyAtEnd` states that the sentinel is sent only when it holds, and `Transfer.NoTerminationPast16Bits` that it never holds with 65536 packets or more |
| Window.Admit | Sender.java:133-139 | admission moves `nextSeqNumber` on by exactly 1 and keeps it within `base + windowSizeN`, sends that packet if it exists, and starts the timer iff `base == nextSeqNumber` before |
| Window.AdmitKeepsShape | Sender.java:133-139 | admission keeps `base <= nextSeqNumber <= base + windowSizeN` and leaves the window non-empty |
| Window.Retransmit | Sender.java:107-124 | with an empty window nothing changes; with every packet acknowledged only `timeout` is cleared; otherwise the timer restarts and packets `base .. base + windowSizeN` that exist are appended in order |
| Window.RetransmitFromBase | Sender.java:112-117 | a retransmission starts with packet `base` and resends no acknowledged packet |
| Window.RetransmitOverreach | Sender.java:115 | on a full window the retransmission also sends `nextSeqNumber`, a packet never admitted: `windowSizeN + 1` packets |
| Window.SendLoopStep | Sender.java:132-145 | one send-loop iteration during whose sleep no other thread runs: it leaves `base` and `lastACK` alone, moves `nextSeqNumber` on iff the window has room, and only appends to the wire |
| Window.RetransmitBeyondNextSeq | Sender.java:115-117 | with `base < nextSeqNumber <= base + windowSizeN`, a retransmission sends the `windowSizeN + 1` numbers from `base` on, leaves `nextSeqNumber` alone, and its last `base + windowSizeN - nextSeqNumber + 1` packets are numbers at or above `nextSeqNumber`, the earlier ones below it |
| Window.RetransmitPastNextSeq | Sender.java:115-117 | with `base > nextSeqNumber`, a retransmission sends `windowSizeN + 1` packets, every one numbered above `nextSeqNumber`, and leaves `nextSeqNumber` alone |
| Window.AckStep | Sender.java:167-174 | ACK `a` sets `lastACK = a` and `base = a + 1`; the timer runs afterwards iff the new `base != nextSeqNumber`, restarted at `now` |
| Window.ReceiveAck | Sender.java:164-169 | the received datagram's first two bytes, big-endian, become `lastACK`, and `base == lastACK + 1` |
| Window.AckInWindowAdvances | Sender.java:168-169 | an ACK in `lastACK .. nextSeqNumber - 1` does not move `base` back and keeps the window shape |
| Window.StaleAckMovesBaseBack | Sender.java:168-169 | an ACK older than `lastACK` moves `base` back, and on a full window breaks the bound `nextSeqNumber - base <= windowSizeN` |
| Window.AckNotStaleKeepsBound | Sender.java:168-169 | an ACK no older than `lastACK` moves `base` only up and keeps `nextSeqNumber - base <= windowSizeN` |
| Window.OverreachAckPassesNextSeq | Sender.java:115-117 | the extra packet of a full-window retransmission is `nextSeqNumber`; a non-stale ACK of it sets `base = nextSeqNumber + 1` and breaks the window shape |
| Window.DuplicateAck | Sender.java:167-174 | the same ACK twice leaves the window unchanged the second time but restarts a running timer |
| Transfer.Startup | Sender.java:232-235 | after framing, `seqNo - 1` is the number of reads, `base == nextSeqNumber == 1`, `lastACK == 0`, nothing sent |
| Transfer.Next | Sender.java:159-263 | while `lastACK != seqNo - 1` and the socket is open an arriving ACK becomes `lastACK` with `base` one above it, and once `lastACK == seqNo - 1` arrivals and loop tests change nothing; loop tests and polls send nothing and move neither `base` nor `nextSeqNumber`; the shutdown appends exactly the sentinel to the wire trace and closes iff `lastACK == seqNo - 1` and no delay is in progress, and otherwise sends nothing; nothing happens after closing; the wire trace only grows |
| Transfer.NextSendLoop | Sender.java:132-145 | the window test admits iff the window has room and otherwise starts the sleep, changing nothing else; it does nothing while the sender sleeps; the wake-up ends the sleep and never moves `nextSeqNumber`; neither touches `base` or `lastACK`, and ACKs, loop tests and polls do not change whether the sender sleeps |
| Transfer.NextMainLoop | Sender.java:237-241 | the loop test starts the delay iff some packet is unacknowledged and changes nothing else; after the delay `checkTimeout` adds `now - startTime` to `elapsedTime`, raises `timeout` iff that reaches `retransmissionTimeout`, and changes nothing else; the shutdown waits for the delay to end; other threads' events do not touch the delay |
| Transfer.FinalAckDuringDelay | Sender.java:167-241 | when the last ACK arrives during the main loop's delay, the timer stops if the window is empty, the shutdown still waits, the timeout check then runs on that timer and changes only it, and the next loop test and shutdown send exactly the sentinel |
| Transfer.SleepThenWake | Sender.java:132-145 | a window test followed by the wake-up with nothing in between is exactly the fused iteration `SendLoopStep` |
| Transfer.AckValue | Sender.java:167 | the ACK value of an arrival is in `0 .. 65535` |
| Transfer.StartupInv | Sender.java:23-38 | the invariant holds after startup |
| Transfer.NextKeepsInv | Sender.java:126-183 | every atomic step of any thread keeps `base == lastACK + 1`, `seqNo == packets.size() + 1`, data sent only for existing packets, and the sentinel last and only after closing |
| Transfer.RunKeepsInv | Sender.java:126-183 | the invariant holds after every interleaving of the three threads |
| Transfer.NextKeepsWindow | Sender.java:133-174 | with ACKs inside the window, each step keeps `base <= nextSeqNumber <= base + windowSizeN` and moves `base` and `lastACK` only forward |
| Transfer.RunKeepsWindow | Sender.java:133-174 | over any well-behaved run: `base == lastACK + 1`, the window shape, and `base`, `lastACK`, `nextSeqNumber` all non-decreasing |
| Transfer.NextKeepsBound | Sender.java:133-174 | with ACKs no older than `lastACK`, each step keeps `nextSeqNumber - base <= windowSizeN` and moves `base` and `lastACK` only forward |
| Transfer.RunKeepsBound | Sender.java:133-174 | over any run whose ACKs never go backwards: `nextSeqNumber - base <= windowSizeN`, and `base`, `lastACK`, `nextSeqNumber` all non-decreasing |
| Transfer.WindowBoundFromStartup | Sender.java:133-139 | from startup with `windowSizeN >= 0`, every run whose ACKs never go backwards keeps `base == lastACK + 1` and `nextSeqNumber - base <= windowSizeN`; if every ACK is also below `nextSeqNumber`, `base <= nextSeqNumber` holds too |
| Transfer.NoTerminationPast16Bits | Sender.java:160 | with 65536 packets or more, `lastACK == seqNo - 1` never holds after any run, the socket is never closed and the sentinel is never sent |
| Transfer.OverreachRun | Sender.java:107-174 | two packets, window 1: the sender finds the window full and sleeps, and on waking retransmits packets 1 and 2; the non-stale ACK 2 leaves `base == 3 > nextSeqNumber == 2` with every packet acknowledged; packet 2 is then sent again before the sentinel |
| Transfer.SleepingSenderRun | Sender.java:107-174 | four packets, window 2: ACK 1 arrives while the sender sleeps on a full window; the wake-up sends 2, 3 and 4 with `nextSeqNumber` still 3, in a run whose ACKs all lie in the window; the receiver's ACK 4 then leaves `base == 5 > nextSeqNumber == 3` with every packet acknowledged |
| Transfer.LateAcksRun | Sender.java:107-174 | four packets, window 1: the sender sleeps on a full window, wakes and sends 1 and 2, and sleeps again; ACKs 1 and 2 arrive during that sleep, neither going backwards; the wake-up then sends 3 and 4 with `nextSeqNumber` still 2, leaving `base == 3` and packet 4 unacknowledged |
| Transfer.SentinelOnlyAtEnd | Sender.java:237-263 | the sentinel is sent at most once, nothing follows it, and it is sent only once `lastACK` equals the packet count |
| Transfer.NoDataAfterAllAcked | Sender.java:107-124 | in a state with `base <= nextSeqNumber <= base + windowSizeN` in which every packet is acknowledged, neither a window test nor a wake-up puts anything on the wire |
| Transfer.SentDataIsFramed | Sender.java:98-103 | every data datagram on the wire is a 1024-byte packet of the table whose header carries its own number |
| Transfer.TableEntryFramed | Sender.java:98-103 | `sendPacket(n)` for `1 <= n <= packets.size()` selects a 1024-byte packet whose header decodes to `n` modulo 65536 |
| Transfer.LosslessThreePackets | Sender.java:126-183 | three packets, window 2, no loss: the wire carries packets 1, 2, 3 and then the sentinel, and the timer ends stopped |

## Left out

- Sockets: `DatagramSocket` send and receive, `InetAddress` and the loopback
  address are network I/O. What is sent is kept as a trace of `Data(n)` and
  `Sentinel`; `Transfer.SentDataIsFramed` and `Framing.EndOfTransfer` give
  their bytes. A received ACK is an event's datagram. Transport errors that
  end a thread are not modelled.
- `FileInputStream`: file I/O. The file is given as its sequence of reads.
  `Framing.FileReads` is one such sequence, in which every read fills the
  buffer. A failure to open or read the file is not modelled.
- Threads: creation, `interrupt`, `join`, `isAlive` and the print-based
  `delay` are concurrency and timing. The send loop's `sleep` is kept as the
  gap between `SendIteration` and `Wake`, and the main loop's `delay` as the
  gap between `LoopTest` and `Poll`, but their lengths are not: the model
  lets any events happen during them. The stretches between such points are
  atomic steps. The real threads also read and write the static fields
  without synchronisation inside those stretches, for example between the
  window test and `nextSeqNumber++` in admission. Interleavings inside a
  step are not modelled.
- `System.nanoTime`: wall-clock reads. It is the explicit `now` parameter of
  each step.
- `Integer.parseInt` of the command line is a library wrapper. `windowSizeN`
  and `retransmissionTimeout` are parameters of `Transfer.Startup`.
- Java `int` overflow is not modelled: integers are unbounded. This covers
  `base + windowSizeN`, `nextSeqNumber++`, `seqNo` past 2^31 - 1, and the
  narrowing of the `long` difference in `elapsedTime +=`. The 16-bit header
  wrap-around is modelled.
- Transfer.RunKeepsWindow: `base <= nextSeqNumber` is proved only for runs
  whose processed ACKs lie in `lastACK .. nextSeqNumber - 1`. A correct
  receiver's ACK of the extra retransmitted packet breaks it
  (`Transfer.OverreachRun`), so the code does not keep it in general.
- Transfer.WindowBoundFromStartup: `nextSeqNumber - base <= windowSizeN` is
  proved for runs whose ACKs never go backwards. A stale ACK breaks it
  (`Window.StaleAckMovesBaseBack`), and the code has no guard against one.
  `base <= nextSeqNumber` is stated only under the stronger assumption above.

=== FILE: framing.dfy ===
/**
 Packet framing of the Go-Back-N sender: the two-byte big-endian sequence
 header, the packet that prepends it to a payload buffer, the packet table
 built from the reads of the input file, the acknowledgment decoder that
 inverts the header, and the end-of-transfer sentinel.

 Java bytes are signed; a `Byte` here is the unsigned value `b & 0xff`, which
 is what every use of a byte in the sender computes.
 */
module Framing {

  type Byte = x: int | 0 <= x < 256

  type Packet = seq<Byte>

  /** Size of the read buffer, and so of every payload (`MAX_LENGTH`). */
  const MaxLength: nat := 1022

  /** Bytes of sequence header in front of every payload. */
  const HeaderLength: nat := 2

  /** Size of every framed packet: the full buffer behind its header. */
  const PacketLength: nat := MaxLength + HeaderLength

  /** The number of distinct values a two-byte header can carry. */
  const SeqSpace: nat := 65536

  /** `createHeader`: the high byte of the number's 16 low bits, then the low
      byte. For the divisor 256, Java's arithmetic right shift by 8 is Dafny's
      `/` and masking with 255 is Dafny's `%`, also for negative numbers. */
  function CreateHeader(n: int): (h: seq<Byte>)
    ensures |h| == HeaderLength
    ensures h[0] == (n % SeqSpace) / 256 && h[1] == n % 256
  {
    HighByte(n);
    [(n / 256) % 256, n % 256]
  }

  /** Shifting right by 8 and masking with 255 gives the high byte of the
      16 low bits. */
  lemma HighByte(n: int)
    ensures (n / 256) % 256 == (n % SeqSpace) / 256
  {
    var m := n % SeqSpace;
    var top := n / SeqSpace;
    var hi := m / 256;
    var lo := m % 256;
    assert m == hi * 256 + lo && 0 <= hi < 256;
    DivMod256(n, top * 256 + hi, lo);
    DivMod256(top * 256 + hi, top, hi);
  }

  /** The acknowledgment decoder of the receive thread: the first byte of the
      buffer is the high byte, the second the low byte. */
  function DecodeAck(buf: seq<Byte>): (a: nat)
    requires |buf| == HeaderLength
    ensures a < SeqSpace
  {
    (buf[0] as int) * 256 + (buf[1] as int)
  }

  /** The two bytes the receive buffer holds after a datagram arrives: a
      longer datagram is truncated to the buffer, a shorter one leaves the
      fresh buffer's zeros in place. */
  function ReceiveBuffer(datagram: seq<Byte>): (buf: seq<Byte>)
    ensures |buf| == HeaderLength
    ensures forall i :: 0 <= i < HeaderLength ==>
              buf[i] == (if i < |datagram| then datagram[i] else 0)
  {
    if |datagram| >= 2 then datagram[..2]
    else if |datagram| == 1 then [datagram[0], 0]
    else [0, 0]
  }

  /** The end-of-transfer datagram: the number 0 encoded the way a header is. */
  function EndOfTransfer(): (eot: seq<Byte>)
    ensures eot == [0, 0]
    ensures DecodeAck(eot) == 0
  {
    var last := 0;
    [(last / 256) % 256, last % 256]
  }

  /** The header keeps exactly the 16 low bits: decoding it gives the
      sequence number modulo 65536, for every Java `int`. */
  lemma HeaderRoundTrip(n: int)
    ensures DecodeAck(CreateHeader(n)) == n % SeqSpace
    ensures 0 <= n < SeqSpace ==> DecodeAck(CreateHeader(n)) == n
  {
    var m := n % SeqSpace;
    var top := n / SeqSpace;
    var hi := m / 256;
    var lo := m % 256;
    assert m == hi * 256 + lo && 0 <= hi < 256;
    DivMod256(n, top * 256 + hi, lo);
    DivMod256(top * 256 + hi, top, hi);
    assert CreateHeader(n) == [hi, lo];
  }

  /** Division by 256 is determined by quotient and remainder. */
  lemma DivMod256(n: int, q: int, r: int)
    requires n == q * 256 + r && 0 <= r < 256
    ensures n / 256 == q && n % 256 == r
  {
  }

  /** The other direction: encoding a decoded acknowledgment gives back its bytes. */
  lemma DecodeThenEncode(buf: seq<Byte>)
    requires |buf| == HeaderLength
    ensures CreateHeader(DecodeAck(buf)) == buf
  {
    var a := DecodeAck(buf);
    assert a / 256 == buf[0];
    assert a % 256 == buf[1];
  }

  /** The sentinel is the header of sequence number 0, so a data packet's
      header equals it exactly when its number is a multiple of 65536. */
  lemma HeaderIsSentinel(n: int)
    ensures CreateHeader(0) == EndOfTransfer()
    ensures CreateHeader(n) == EndOfTransfer() <==> n % SeqSpace == 0
  {
    HeaderRoundTrip(n);
    if CreateHeader(n) == EndOfTransfer() {
      assert DecodeAck(CreateHeader(n)) == 0;
    } else {
      DecodeThenEncode(CreateHeader(n));
    }
  }

  /** The result of `createPacket`: the packet, and the incremented `seqNo`. */
  datatype Framed = Framed(packet: Packet, nextSeqNo: int)

  /** `createPacket`: the header of the current `seqNo`, then the data, and `seqNo + 1`. */
  function CreatePacket(seqNo: int, data: seq<Byte>): (r: Framed)
    ensures |r.packet| == |data| + HeaderLength
    ensures r.packet[..HeaderLength] == CreateHeader(seqNo)
    ensures r.packet[HeaderLength..] == data
    ensures r.nextSeqNo == seqNo + 1
  {
    Framed(CreateHeader(seqNo) + data, seqNo + 1)
  }

  /** What a receiver reads out of a packet: the decoded header and the payload. */
  function ParsePacket(p: Packet): (r: (nat, seq<Byte>))
    requires |p| >= HeaderLength
    ensures r.0 < SeqSpace
  {
    (DecodeAck(p[..HeaderLength]), p[HeaderLength..])
  }

  /** Parsing a packet gives back its sequence number (modulo 65536) and its data unchanged. */
  lemma ParseCreatePacket(seqNo: int, data: seq<Byte>)
    ensures ParsePacket(CreatePacket(seqNo, data).packet) == (seqNo % SeqSpace, data)
  {
    HeaderRoundTrip(seqNo);
  }

  function Zeros(n: nat): (z: seq<Byte>)
    ensures |z| == n
    ensures forall i :: 0 <= i < n ==> z[i] == 0
  {
    seq(n, i => 0)
  }

  /** The `MAX_LENGTH` buffer after a read of `chunk`: the bytes read, then
      the zeros of the freshly allocated array. */
  function ReadBuffer(chunk: seq<Byte>): (buf: seq<Byte>)
    requires |chunk| <= MaxLength
    ensures |buf| == MaxLength
    ensures buf[..|chunk|] == chunk
    ensures forall i :: |chunk| <= i < MaxLength ==> buf[i] == 0
  {
    chunk + Zeros(MaxLength - |chunk|)
  }

  /** Every read returns at most the buffer's size. */
  ghost predicate ValidReads(chunks: seq<seq<Byte>>)
  {
    forall k :: 0 <= k < |chunks| ==> |chunks[k]| <= MaxLength
  }

  /** The packets framed from `chunks`, numbered from `seqNo`: the loop of
      `createAllPackets`, one `createPacket` of the whole buffer per read. */
  function PacketTable(seqNo: int, chunks: seq<seq<Byte>>): (t: seq<Packet>)
    requires ValidReads(chunks)
    ensures |t| == |chunks|
    ensures forall i :: 0 <= i < |t| ==>
              |t[i]| == PacketLength
              && t[i][..HeaderLength] == CreateHeader(seqNo + i)
              && t[i][HeaderLength..] == ReadBuffer(chunks[i])
    decreases |chunks|
  {
    if |chunks| == 0 then []
    else
      var f := CreatePacket(seqNo, ReadBuffer(chunks[0]));
      [f.packet] + PacketTable(f.nextSeqNo, chunks[1..])
  }

  /** `createAllPackets` with the file given as its sequence of chunks; a read
      past the last one is the end of the file (`read` returns -1). The table
      is the `packets` list, `seqNo` the counter's value afterwards. */
  method CreateAllPackets(chunks: seq<seq<Byte>>) returns (packets: seq<Packet>, seqNo: int)
    requires ValidReads(chunks)
    ensures packets == PacketTable(1, chunks)
    ensures seqNo == |packets| + 1
  {
    packets := [];
    seqNo := 1;
    var next := 0;
    var isDone := false;
    while !isDone
      invariant 0 <= next <= |chunks|
      invariant seqNo == next + 1
      invariant ValidReads(chunks[..next])
      invariant packets == PacketTable(1, chunks[..next])
      invariant isDone ==> next == |chunks|
      decreases |chunks| - next, !isDone
    {
      if next == |chunks| {
        isDone := true;
        break;
      } else {
        var framed := CreatePacket(seqNo, ReadBuffer(chunks[next]));
        assert chunks[..next + 1] == chunks[..next] + [chunks[next]];
        PacketTableSnoc(1, chunks[..next], chunks[next]);
        packets := packets + [framed.packet];
        seqNo := framed.nextSeqNo;
        next := next + 1;
      }
    }
    assert chunks[..next] == chunks;
  }

  /** Framing one more read appends one more packet, numbered after the rest. */
  lemma {:induction false} PacketTableSnoc(seqNo: int, chunks: seq<seq<Byte>>, chunk: seq<Byte>)
    requires ValidReads(chunks)
    requires |chunk| <= MaxLength
    ensures ValidReads(chunks + [chunk])
    ensures PacketTable(seqNo, chunks + [chunk])
            == PacketTable(seqNo, chunks) + [CreatePacket(seqNo + |chunks|, ReadBuffer(chunk)).packet]
  {
    var all := chunks + [chunk];
    var t := PacketTable(seqNo, all);
    var before := PacketTable(seqNo, chunks);
    var last := CreatePacket(seqNo + |chunks|, ReadBuffer(chunk)).packet;
    var u := before + [last];
    assert |t| == |u|;
    forall i | 0 <= i < |t|
      ensures t[i] == u[i]
    {
      if i < |chunks| {
        assert all[i] == chunks[i];
        assert u[i] == before[i];
        SamePacket(t[i], before[i]);
      } else {
        assert all[i] == chunk;
        assert u[i] == last;
        SamePacket(t[i], last);
      }
    }
  }

  /** Two packets are equal when their headers and their payloads are. */
  lemma SamePacket(p: Packet, q: Packet)
    requires |p| == |q| >= HeaderLength
    requires p[..HeaderLength] == q[..HeaderLength] && p[HeaderLength..] == q[HeaderLength..]
    ensures p == q
  {
    assert p == p[..HeaderLength] + p[HeaderLength..];
    assert q == q[..HeaderLength] + q[HeaderLength..];
  }

  /** Packet numbering: the packet at list index `i` carries sequence number
      `i + 1` (modulo 65536 on the wire), every packet is 1024 bytes whatever
      the read returned, and its payload starts with the bytes read. */
  lemma PacketNumbering(chunks: seq<seq<Byte>>, i: nat)
    requires ValidReads(chunks)
    requires i < |chunks|
    ensures |PacketTable(1, chunks)[i]| == 1024
    ensures ParsePacket(PacketTable(1, chunks)[i]).0 == (i + 1) % SeqSpace
    ensures i + 1 < SeqSpace ==> ParsePacket(PacketTable(1, chunks)[i]).0 == i + 1
    ensures PacketTable(1, chunks)[i][HeaderLength..HeaderLength + |chunks[i]|] == chunks[i]
  {
    var p := PacketTable(1, chunks)[i];
    HeaderRoundTrip(i + 1);
    assert p[HeaderLength..][..|chunks[i]|] == chunks[i];
    assert p[HeaderLength..HeaderLength + |chunks[i]|] == p[HeaderLength..][..|chunks[i]|];
  }

  /** The sequence of chunks of a file whose every read fills the buffer
      until the last: `MAX_LENGTH`-sized chunks, the last one possibly shorter. */
  function FileReads(file: seq<Byte>): (chunks: seq<seq<Byte>>)
    ensures forall k :: 0 <= k < |chunks| ==> 0 < |chunks[k]| <= MaxLength
    decreases |file|
  {
    if |file| == 0 then []
    else if |file| <= MaxLength then [file]
    else [file[..MaxLength]] + FileReads(file[MaxLength..])
  }

  function Concat(chunks: seq<seq<Byte>>): (s: seq<Byte>)
    decreases |chunks|
  {
    if |chunks| == 0 then [] else chunks[0] + Concat(chunks[1..])
  }

  /** The chunks cover the file exactly once, in order, and there are
      `ceil(|file| / MAX_LENGTH)` of them; all but the last fill the buffer. */
  lemma {:induction false} FileReadsCover(file: seq<Byte>)
    ensures Concat(FileReads(file)) == file
    ensures |FileReads(file)| == (|file| + MaxLength - 1) / MaxLength
    ensures |file| <= |FileReads(file)| * MaxLength
    ensures forall k :: 0 <= k < |FileReads(file)| - 1 ==> |FileReads(file)[k]| == MaxLength
    decreases |file|
  {
    if |file| == 0 {
    } else if |file| <= MaxLength {
      assert Concat([file]) == file + Concat([]);
    } else {
      var rest := file[MaxLength..];
      FileReadsCover(rest);
      var chunks := FileReads(file);
      assert chunks == [file[..MaxLength]] + FileReads(rest);
      assert chunks[1..] == FileReads(rest);
      assert file == file[..MaxLength] + rest;
      assert |rest| == |file| - MaxLength;
      assert (|file| + MaxLength - 1) / MaxLength == (|rest| + MaxLength - 1) / MaxLength + 1;
    }
  }

  /** The payloads of a table, concatenated: what a receiver that strips
      the headers reassembles. */
  function Payloads(t: seq<Packet>): (s: seq<Byte>)
    requires forall k :: 0 <= k < |t| ==> |t[k]| >= HeaderLength
    decreases |t|
  {
    if |t| == 0 then [] else t[0][HeaderLength..] + Payloads(t[1..])
  }

  /** Because the whole buffer is framed, the reassembled payloads are the
      file followed by the zero padding of the last buffer: the receiver gets
      `|file|` rounded up to a multiple of `MAX_LENGTH` bytes. */
  lemma {:induction false} PayloadsArePaddedFile(file: seq<Byte>, seqNo: int)
    ensures ValidReads(FileReads(file))
    ensures |file| <= |FileReads(file)| * MaxLength
    ensures Payloads(PacketTable(seqNo, FileReads(file)))
            == file + Zeros(|FileReads(file)| * MaxLength - |file|)
    decreases |file|
  {
    FileReadsCover(file);
    if |file| == 0 {
      assert Zeros(0) == [];
    } else if |file| <= MaxLength {
      PaddedSingleRead(file, seqNo);
    } else {
      PayloadsArePaddedFile(file[MaxLength..], seqNo + 1);
      PaddedFileStep(file, seqNo);
    }
  }

  /** A file that fits one buffer is one packet whose payload is the file
      padded with zeros to `MAX_LENGTH`. */
  lemma PaddedSingleRead(file: seq<Byte>, seqNo: int)
    requires 0 < |file| <= MaxLength
    ensures Payloads(PacketTable(seqNo, FileReads(file))) == file + Zeros(MaxLength - |file|)
  {
    var chunks := FileReads(file);
    assert chunks == [file];
    PayloadsCons(seqNo, chunks);
    assert chunks[1..] == [];
    assert Payloads(PacketTable(seqNo, chunks)) == ReadBuffer(file) + [];
  }

  /** The inductive step of `PayloadsArePaddedFile`: a full first read
      followed by a rest whose payloads are already the padded rest. */
  lemma PaddedFileStep(file: seq<Byte>, seqNo: int)
    requires |file| > MaxLength
    requires |file[MaxLength..]| <= |FileReads(file[MaxLength..])| * MaxLength
    requires Payloads(PacketTable(seqNo + 1, FileReads(file[MaxLength..])))
             == file[MaxLength..] + Zeros(|FileReads(file[MaxLength..])| * MaxLength - |file[MaxLength..]|)
    ensures Payloads(PacketTable(seqNo, FileReads(file)))
            == file + Zeros(|FileReads(file)| * MaxLength - |file|)
  {
    var chunks := FileReads(file);
    var rest := file[MaxLength..];
    var restChunks := FileReads(rest);
    var pad := Zeros(|restChunks| * MaxLength - |rest|);
    assert chunks == [file[..MaxLength]] + restChunks;
    assert chunks[1..] == restChunks;
    PayloadsCons(seqNo, chunks);
    assert ReadBuffer(chunks[0]) == file[..MaxLength];
    assert Payloads(PacketTable(seqNo, chunks)) == file[..MaxLength] + (rest + pad);
    assert |chunks| * MaxLength - |file| == |restChunks| * MaxLength - |rest|;
    assert file == file[..MaxLength] + rest;
    assert file[..MaxLength] + (rest + pad) == file + pad;
  }

  /** The payloads of a table are the first read's buffer followed by the
      payloads of the rest. */
  lemma PayloadsCons(seqNo: int, chunks: seq<seq<Byte>>)
    requires ValidReads(chunks) && |chunks| > 0
    ensures ValidReads(chunks[1..])
    ensures Payloads(PacketTable(seqNo, chunks))
            == ReadBuffer(chunks[0]) + Payloads(PacketTable(seqNo + 1, chunks[1..]))
  {
    var t := PacketTable(seqNo, chunks);
    assert t[1..] == PacketTable(seqNo + 1, chunks[1..]);
  }

  /** A 2500-byte file is framed into three 1024-byte packets numbered 1, 2
      and 3, carrying 1022, 1022 and 456 bytes of the file. */
  lemma ThreePacketFile(file: seq<Byte>)
    requires |file| == 2500
    ensures ValidReads(FileReads(file))
    ensures |FileReads(file)| == 3
    ensures |FileReads(file)[2]| == 456
    ensures forall i :: 0 <= i < 3 ==>
              |PacketTable(1, FileReads(file))[i]| == 1024
              && ParsePacket(PacketTable(1, FileReads(file))[i]).0 == i + 1
  {
    var chunks := FileReads(file);
    FileReadsCover(file);
    assert FileReads(file) == [file[..1022]] + FileReads(file[1022..]);
    assert FileReads(file[1022..]) == [file[1022..][..1022]] + FileReads(file[1022..][1022..]);
    assert FileReads(file[1022..][1022..]) == [file[1022..][1022..]];
    assert chunks[2] == file[1022..][1022..];
    forall i | 0 <= i < 3
      ensures |PacketTable(1, chunks)[i]| == 1024
      ensures ParsePacket(PacketTable(1, chunks)[i]).0 == i + 1
    {
      PacketNumbering(chunks, i);
    }
  }
}

=== FILE: options.dfy ===
/** An optional value: `Some` carries it, `None` stands for its absence. */
module Options {

  datatype Option<+T> = None | Some(value: T)

}

=== FILE: timer.dfy ===
/**
 The single retransmission timer of the sender, the four static fields
 `timerIsWorking`, `elapsedTime`, `startTime` and `timeout`. The clock
 (`System.nanoTime() / 1000000`) is an explicit `now` in milliseconds.
 */
module Timer {

  datatype Timer = Timer(working: bool, elapsed: int, startTime: int, timeout: bool)

  /** The timer before the transfer starts: every field at its initial value. */
  const Initial: Timer := Timer(false, 0, 0, false)

  /** `startTimer`, which also serves as reset: the countdown restarts from `now`. */
  function Start(t: Timer, now: int): (r: Timer)
    ensures r.working && r.elapsed == 0 && r.startTime == now
    ensures r.timeout == t.timeout
  {
    t.(working := true, elapsed := 0, startTime := now)
  }

  /** `stopTimer`: the timer is idle with nothing elapsed; its start instant
      is left as it was. */
  function Stop(t: Timer): (r: Timer)
    ensures !r.working && r.elapsed == 0
    ensures r.startTime == t.startTime && r.timeout == t.timeout
  {
    t.(working := false, elapsed := 0)
  }

  /** `updateElapsedTime`: adds the whole time since the start instant to
      `elapsedTime`. The start instant is not moved, so successive polls
      accumulate overlapping intervals. */
  function UpdateElapsed(t: Timer, now: int): (r: Timer)
    ensures r.elapsed - t.elapsed == now - t.startTime
    ensures r.working == t.working && r.startTime == t.startTime && r.timeout == t.timeout
  {
    t.(elapsed := t.elapsed + (now - t.startTime))
  }

  /** `checkTimeout`: updates the elapsed time, then raises `timeout` exactly
      when it has reached the retransmission timeout. Whether the timer is
      working plays no part. */
  function CheckTimeout(t: Timer, now: int, rto: int): (r: Timer)
    ensures r.timeout <==> t.elapsed + (now - t.startTime) >= rto
    ensures r.elapsed == t.elapsed + (now - t.startTime)
    ensures r.working == t.working && r.startTime == t.startTime
  {
    var u := UpdateElapsed(t, now);
    u.(timeout := u.elapsed >= rto)
  }

  /** The main thread's polls at the instants `times`, in order. */
  function Polls(t: Timer, times: seq<int>, rto: int): (r: Timer)
    decreases |times|
  {
    if |times| == 0 then t else Polls(CheckTimeout(t, times[0], rto), times[1..], rto)
  }

  /** The sum of the intervals from `start` to each instant of `times`. */
  function SumSince(start: int, times: seq<int>): (s: int)
    decreases |times|
  {
    if |times| == 0 then 0 else (times[0] - start) + SumSince(start, times[1..])
  }

  /** Polling leaves the start instant and the working flag alone and adds
      the interval since the start instant once per poll. */
  lemma {:induction false} PollsAccumulate(t: Timer, times: seq<int>, rto: int)
    ensures Polls(t, times, rto).elapsed == t.elapsed + SumSince(t.startTime, times)
    ensures Polls(t, times, rto).startTime == t.startTime
    ensures Polls(t, times, rto).working == t.working
    decreases |times|
  {
    if |times| > 0 {
      PollsAccumulate(CheckTimeout(t, times[0], rto), times[1..], rto);
    }
  }

  /** After the timer starts at `t0` and is polled at `times`, `timeout` is
      raised exactly when the accumulated intervals reach the timeout. */
  lemma {:induction false} TimeoutAfterPolls(t: Timer, t0: int, times: seq<int>, rto: int)
    requires |times| > 0
    ensures Polls(Start(t, t0), times, rto).timeout <==> SumSince(t0, times) >= rto
  {
    var s := Start(t, t0);
    var k := |times| - 1;
    PollsSplit(s, times[..k], times[k], rto);
    assert times == times[..k] + [times[k]];
    PollsAccumulate(s, times[..k], rto);
    PollsAccumulate(s, times, rto);
  }

  /** Polling at `times` and then at `last` is one more poll after the rest. */
  lemma {:induction false} PollsSplit(t: Timer, times: seq<int>, last: int, rto: int)
    ensures Polls(t, times + [last], rto) == CheckTimeout(Polls(t, times, rto), last, rto)
    decreases |times|
  {
    if |times| == 0 {
      assert times + [last] == [last];
    } else {
      assert (times + [last])[1..] == times[1..] + [last];
      PollsSplit(CheckTimeout(t, times[0], rto), times[1..], last, rto);
    }
  }

  /** With a clock that never runs backwards, a poll at least `rto` after the
      start raises `timeout`, whatever the earlier polls were. */
  lemma {:induction false} TimeoutFires(t: Timer, t0: int, times: seq<int>, rto: int)
    requires |times| > 0
    requires forall i :: 0 <= i < |times| ==> t0 <= times[i]
    requires times[|times| - 1] - t0 >= rto
    ensures Polls(Start(t, t0), times, rto).timeout
  {
    SumSinceAtLeastLast(t0, times);
    TimeoutAfterPolls(t, t0, times, rto);
  }

  lemma {:induction false} SumSinceAtLeastLast(start: int, times: seq<int>)
    requires |times| > 0
    requires forall i :: 0 <= i < |times| ==> start <= times[i]
    ensures SumSince(start, times) >= times[|times| - 1] - start
    decreases |times|
  {
    if |times| > 1 {
      SumSinceAtLeastLast(start, times[1..]);
    }
  }
}

=== FILE: transfer.dfy ===
/**
 The whole transfer as a sequence of events: the send loop's window test,
 its wake-up from the `sleep` before a retransmission, ACKs arriving at the
 acknowledgment thread, the main loop's test, its timeout check after the
 `delay`, and the main thread's shutdown that sends the end-of-transfer
 sentinel. Each event is one thread's code between two points where another
 thread can run in practice (a `sleep`, a blocking `receive`, a `delay`),
 taken as atomic. An interleaving at that grain is some sequence of these
 events.
 */
module Transfer {
  import opened Framing
  import opened Window
  import Timer

  /** The shared state with the packet table and parameters, whether the
      socket has been closed after the sentinel, whether the send loop is in
      the `sleep` that precedes a retransmission, and whether the main loop
      is in the `delay` that precedes a timeout check. */
  datatype System = System(cfg: Config, s: State, closed: bool, asleep: bool, delaying: bool)

  /** `SendIteration` is the send loop's window test: admission, or the
      start of the sleep on a full window. `Wake` ends that sleep and runs
      `retransmission` on the state as it is then. `LoopTest` is the main
      loop's test `lastACK != seqNo - 1` and the start of its `delay`;
      `Poll` ends the delay with `checkTimeout`. */
  datatype Event =
    | SendIteration(now: int)
    | Wake(now: int)
    | AckArrival(datagram: seq<Byte>, now: int)
    | LoopTest
    | Poll(now: int)
    | Shutdown

  /** `main` up to the start of the threads: frame the file's reads, then
      start from the initial static fields. */
  function Startup(chunks: seq<seq<Byte>>, window: int, rto: int): (sys: System)
    requires ValidReads(chunks)
    ensures |sys.cfg.packets| == |chunks| && sys.cfg.window == window && sys.cfg.rto == rto
    ensures sys.s.seqNo == |chunks| + 1 && sys.s.base == sys.s.nextSeq == 1 && sys.s.lastAck == 0
    ensures sys.s.sent == [] && !sys.closed && !sys.asleep && !sys.delaying
  {
    System(Config(PacketTable(1, chunks), window, rto), Initial(|chunks|), false, false, false)
  }

  /** One event. The acknowledgment thread and the main loop's test have
      stopped once `lastACK == seqNo - 1`; the sentinel goes out only then,
      after a delay in progress has ended; after the socket is closed
      nothing happens. */
  function Next(sys: System, e: Event): (r: System)
    ensures r.cfg == sys.cfg
    ensures sys.closed ==> r == sys
    ensures e.AckArrival? && AllAcked(sys.s) ==> r == sys
    ensures e.AckArrival? && !sys.closed && !AllAcked(sys.s) ==>
              r.s.lastAck == AckValue(e) && r.s.base == AckValue(e) + 1
    ensures e.LoopTest? && AllAcked(sys.s) ==> r == sys
    ensures e.LoopTest? || e.Poll? ==> r.s.sent == sys.s.sent && r.s.base == sys.s.base && r.s.nextSeq == sys.s.nextSeq
    ensures e.Shutdown? ==> (r.closed <==> sys.closed || (AllAcked(sys.s) && !sys.delaying))
    ensures e.Shutdown? && !sys.closed ==>
              r.s.sent == (if AllAcked(sys.s) && !sys.delaying then sys.s.sent + [Sentinel] else sys.s.sent)
    ensures !e.Shutdown? ==> r.closed == sys.closed
    ensures r.s.seqNo == sys.s.seqNo
    ensures r.s.nextSeq >= sys.s.nextSeq
    ensures |sys.s.sent| <= |r.s.sent| && r.s.sent[..|sys.s.sent|] == sys.s.sent
  {
    if sys.closed then sys
    else
      match e
      case SendIteration(now) =>
        if sys.asleep then sys
        else if CanAdmit(sys.cfg, sys.s) then sys.(s := Admit(sys.cfg, sys.s, now))
        else sys.(asleep := true)
      case Wake(now) =>
        if sys.asleep then sys.(s := Retransmit(sys.cfg, sys.s, now), asleep := false) else sys
      case AckArrival(datagram, now) =>
        if AllAcked(sys.s) then sys else sys.(s := ReceiveAck(sys.s, datagram, now))
      case LoopTest =>
        if sys.delaying || AllAcked(sys.s) then sys else sys.(delaying := true)
      case Poll(now) =>
        if sys.delaying then sys.(s := sys.s.(timer := Timer.CheckTimeout(sys.s.timer, now, sys.cfg.rto)), delaying := false)
        else sys
      case Shutdown =>
        if AllAcked(sys.s) && !sys.delaying then sys.(s := sys.s.(sent := sys.s.sent + [Sentinel]), closed := true)
        else sys
  }

  /** The send loop's two events. A window test while the sender sleeps
      does nothing; otherwise it admits exactly when the window has room and
      sleeps exactly when it has none. A wake-up without a sleep does
      nothing; otherwise it leaves `nextSeqNumber` alone, so a
      retransmission never admits. Neither touches `base` or `lastACK`, and
      only they change whether the sender sleeps. */
  lemma NextSendLoop(sys: System, e: Event)
    ensures e.SendIteration? && sys.asleep ==> Next(sys, e) == sys
    ensures e.SendIteration? && !sys.closed && !sys.asleep ==>
              && (Next(sys, e).asleep <==> !CanAdmit(sys.cfg, sys.s))
              && (Next(sys, e).s.nextSeq == sys.s.nextSeq + 1 <==> CanAdmit(sys.cfg, sys.s))
              && (Next(sys, e).asleep ==> Next(sys, e).s == sys.s)
    ensures e.Wake? && !sys.asleep ==> Next(sys, e) == sys
    ensures e.Wake? && !sys.closed ==> !Next(sys, e).asleep && Next(sys, e).s.nextSeq == sys.s.nextSeq
    ensures e.SendIteration? || e.Wake? ==>
              Next(sys, e).s.base == sys.s.base && Next(sys, e).s.lastAck == sys.s.lastAck
    ensures e.AckArrival? || e.LoopTest? || e.Poll? ==> Next(sys, e).asleep == sys.asleep
  {
  }

  /** The main thread's events. The loop test enters the delay exactly when
      some packet is unacknowledged and changes nothing else. The timeout
      check after the delay runs whatever happened meanwhile, also when the
      last ACK arrived during the delay and stopped the timer: it adds
      `now - startTime` to the elapsed time, raises `timeout` iff that
      reaches the retransmission timeout, and changes nothing else. A
      shutdown waits for the delay to end. Only the main thread's events
      change whether it delays. */
  lemma NextMainLoop(sys: System, e: Event)
    ensures e.LoopTest? && !sys.closed && !sys.delaying ==>
              && (Next(sys, e).delaying <==> !AllAcked(sys.s))
              && Next(sys, e).s == sys.s
    ensures e.LoopTest? && sys.delaying ==> Next(sys, e) == sys
    ensures e.Poll? && !sys.delaying ==> Next(sys, e) == sys
    ensures e.Poll? && !sys.closed && sys.delaying ==>
              var t := sys.s.timer;
              var r := Next(sys, e);
              && !r.delaying
              && r.s.timer.elapsed == t.elapsed + (e.now - t.startTime)
              && (r.s.timer.timeout <==> t.elapsed + (e.now - t.startTime) >= sys.cfg.rto)
              && r.s.timer.working == t.working && r.s.timer.startTime == t.startTime
              && r.s.(timer := t) == sys.s
    ensures e.Shutdown? && sys.delaying ==> Next(sys, e) == sys
    ensures !e.LoopTest? && !e.Poll? ==> Next(sys, e).delaying == sys.delaying
  {
  }

  /** The events in order. */
  function Run(sys: System, events: seq<Event>): (r: System)
    ensures r.cfg == sys.cfg
    decreases |events|
  {
    if |events| == 0 then sys else Run(Next(sys, events[0]), events[1..])
  }

  /** What holds after any sequence of events, whatever the ACKs carry. */
  ghost predicate Inv(sys: System)
  {
    var s := sys.s;
    && s.seqNo == |sys.cfg.packets| + 1
    && s.base == s.lastAck + 1
    && s.lastAck < SeqSpace
    && (forall k :: 0 <= k < |s.sent| && s.sent[k].Data? ==> s.sent[k].seqNum <= |sys.cfg.packets|)
    && (forall k :: 0 <= k < |s.sent| && s.sent[k].Sentinel? ==> sys.closed && k == |s.sent| - 1)
    && (sys.closed ==> AllAcked(s) && |s.sent| > 0 && s.sent[|s.sent| - 1].Sentinel?)
  }

  lemma StartupInv(chunks: seq<seq<Byte>>, window: int, rto: int)
    requires ValidReads(chunks)
    ensures Inv(Startup(chunks, window, rto))
  {
  }

  lemma NextKeepsInv(sys: System, e: Event)
    requires Inv(sys)
    ensures Inv(Next(sys, e))
  {
    var r := Next(sys, e);
    var n := |sys.s.sent|;
    if !sys.closed && !sys.asleep && e.SendIteration? && CanAdmit(sys.cfg, sys.s) {
      assert forall k :: n <= k < |r.s.sent| ==> r.s.sent[k] == Data(sys.s.nextSeq);
      assert forall k :: 0 <= k < n ==> r.s.sent[k] == sys.s.sent[k];
    } else if !sys.closed && sys.asleep && e.Wake? {
      assert forall k :: n <= k < |r.s.sent| ==> r.s.sent[k] == Data(sys.s.base + (k - n));
      assert forall k :: 0 <= k < n ==> r.s.sent[k] == sys.s.sent[k];
    }
  }

  /** The invariant holds after every interleaving of the threads. */
  lemma {:induction false} RunKeepsInv(sys: System, events: seq<Event>)
    requires Inv(sys)
    ensures Inv(Run(sys, events))
    decreases |events|
  {
    if |events| > 0 {
      NextKeepsInv(sys, events[0]);
      RunKeepsInv(Next(sys, events[0]), events[1..]);
    }
  }

  /** The ACK an arrival carries, as the acknowledgment thread decodes it. */
  function AckValue(e: Event): (a: nat)
    requires e.AckArrival?
    ensures a < SeqSpace
  {
    DecodeAck(ReceiveBuffer(e.datagram))
  }

  /** The assumption `base <= nextSeqNumber` needs: every ACK the
      acknowledgment thread processes lies in `lastAck .. nextSeqNumber - 1`.
      A correct receiver can break it by acknowledging the packet a
      full-window retransmission sends beyond the window (`OverreachRun`). */
  ghost predicate AckOk(sys: System, e: Event)
  {
    e.AckArrival? && !sys.closed && !AllAcked(sys.s) ==> AckInWindow(sys.s, AckValue(e))
  }

  ghost predicate WellBehaved(sys: System, events: seq<Event>)
    decreases |events|
  {
    |events| == 0 || (AckOk(sys, events[0]) && WellBehaved(Next(sys, events[0]), events[1..]))
  }

  /** With ACKs inside the window, one event keeps the window shape and moves
      none of `base`, `nextSeqNumber` and `lastACK` backwards. */
  lemma NextKeepsWindow(sys: System, e: Event)
    requires Inv(sys)
    requires WindowShape(sys.cfg, sys.s)
    requires AckOk(sys, e)
    ensures WindowShape(sys.cfg, Next(sys, e).s)
    ensures sys.s.base <= Next(sys, e).s.base
    ensures sys.s.lastAck <= Next(sys, e).s.lastAck
  {
    if !sys.closed && e.AckArrival? && !AllAcked(sys.s) {
      AckInWindowAdvances(sys.cfg, sys.s, AckValue(e), e.now);
    }
  }

  /** The window invariant `base == lastACK + 1`, `base <= nextSeqNumber <=
      base + windowSizeN`, and monotonicity, over any well-behaved run. */
  lemma {:induction false} RunKeepsWindow(sys: System, events: seq<Event>)
    requires Inv(sys)
    requires WindowShape(sys.cfg, sys.s)
    requires WellBehaved(sys, events)
    ensures var r := Run(sys, events);
            && r.s.base == r.s.lastAck + 1
            && WindowShape(r.cfg, r.s)
            && sys.s.base <= r.s.base
            && sys.s.lastAck <= r.s.lastAck
            && sys.s.nextSeq <= r.s.nextSeq
    decreases |events|
  {
    RunKeepsInv(sys, events);
    if |events| > 0 {
      NextKeepsInv(sys, events[0]);
      NextKeepsWindow(sys, events[0]);
      RunKeepsWindow(Next(sys, events[0]), events[1..]);
    }
  }

  /** The assumption the bound `nextSeqNumber - base <= windowSizeN` needs:
      no ACK the acknowledgment thread processes is older than `lastAck`. */
  ghost predicate AckNotStale(sys: System, e: Event)
  {
    e.AckArrival? && !sys.closed && !AllAcked(sys.s) ==> sys.s.lastAck <= AckValue(e)
  }

  ghost predicate AcksNeverBack(sys: System, events: seq<Event>)
    decreases |events|
  {
    |events| == 0 || (AckNotStale(sys, events[0]) && AcksNeverBack(Next(sys, events[0]), events[1..]))
  }

  /** With ACKs that never go backwards, one event keeps the bound
      `nextSeqNumber - base <= windowSizeN` and moves neither `base` nor
      `lastACK` backwards. */
  lemma NextKeepsBound(sys: System, e: Event)
    requires Inv(sys)
    requires WindowBound(sys.cfg, sys.s)
    requires AckNotStale(sys, e)
    ensures WindowBound(sys.cfg, Next(sys, e).s)
    ensures sys.s.base <= Next(sys, e).s.base
    ensures sys.s.lastAck <= Next(sys, e).s.lastAck
  {
    if !sys.closed && e.AckArrival? && !AllAcked(sys.s) {
      AckNotStaleKeepsBound(sys.cfg, sys.s, AckValue(e), e.now);
    }
  }

  /** The bound and monotonicity over any run whose ACKs never go backwards. */
  lemma {:induction false} RunKeepsBound(sys: System, events: seq<Event>)
    requires Inv(sys)
    requires WindowBound(sys.cfg, sys.s)
    requires AcksNeverBack(sys, events)
    ensures var r := Run(sys, events);
            && WindowBound(r.cfg, r.s)
            && sys.s.base <= r.s.base
            && sys.s.lastAck <= r.s.lastAck
            && sys.s.nextSeq <= r.s.nextSeq
    decreases |events|
  {
    if |events| > 0 {
      NextKeepsInv(sys, events[0]);
      NextKeepsBound(sys, events[0]);
      RunKeepsBound(Next(sys, events[0]), events[1..]);
    }
  }

  /** From startup with a window size that is not negative, every run whose
      ACKs never go backwards keeps at most `windowSizeN` numbers admitted
      beyond the base; `base <= nextSeqNumber` holds as well when every ACK
      is also below `nextSeqNumber`. */
  lemma WindowBoundFromStartup(chunks: seq<seq<Byte>>, window: int, rto: int, events: seq<Event>)
    requires ValidReads(chunks)
    requires window >= 0
    requires AcksNeverBack(Startup(chunks, window, rto), events)
    ensures var r := Run(Startup(chunks, window, rto), events);
            && r.s.base == r.s.lastAck + 1
            && r.s.nextSeq - r.s.base <= window
    ensures WellBehaved(Startup(chunks, window, rto), events) ==>
              Run(Startup(chunks, window, rto), events).s.base
              <= Run(Startup(chunks, window, rto), events).s.nextSeq
  {
    StartupInv(chunks, window, rto);
    RunKeepsInv(Startup(chunks, window, rto), events);
    RunKeepsBound(Startup(chunks, window, rto), events);
    if WellBehaved(Startup(chunks, window, rto), events) {
      RunKeepsWindow(Startup(chunks, window, rto), events);
    }
  }

  /** The 16-bit ACK cannot reach packet count 65536: with that many packets
      or more, `lastACK == seqNo - 1` never holds, so the acknowledgment
      thread and the main loop never stop and the sentinel is never sent. */
  lemma NoTerminationPast16Bits(chunks: seq<seq<Byte>>, window: int, rto: int, events: seq<Event>)
    requires ValidReads(chunks)
    requires |chunks| >= SeqSpace
    ensures !AllAcked(Run(Startup(chunks, window, rto), events).s)
    ensures !Run(Startup(chunks, window, rto), events).closed
    ensures forall k :: 0 <= k < |Run(Startup(chunks, window, rto), events).s.sent| ==>
              Run(Startup(chunks, window, rto), events).s.sent[k] != Sentinel
  {
    StartupInv(chunks, window, rto);
    RunKeepsInv(Startup(chunks, window, rto), events);
  }

  /** Termination: the sentinel is sent only by a shutdown when
      `lastACK == seqNo - 1`, i.e. when the last packet's number was
      acknowledged; it is sent at most once and nothing follows it. */
  lemma SentinelOnlyAtEnd(chunks: seq<seq<Byte>>, window: int, rto: int, events: seq<Event>)
    requires ValidReads(chunks)
    ensures var r := Run(Startup(chunks, window, rto), events);
            && (r.closed ==> r.s.lastAck == |chunks| && |r.s.sent| > 0 && r.s.sent[|r.s.sent| - 1] == Sentinel)
            && (forall k :: 0 <= k < |r.s.sent| - 1 ==> r.s.sent[k] != Sentinel)
            && (!r.closed ==> forall k :: 0 <= k < |r.s.sent| ==> r.s.sent[k] != Sentinel)
  {
    StartupInv(chunks, window, rto);
    RunKeepsInv(Startup(chunks, window, rto), events);
    InvSentinel(Run(Startup(chunks, window, rto), events));
  }

  /** What `Inv` says about the sentinel, for one state. */
  lemma InvSentinel(sys: System)
    requires Inv(sys)
    ensures sys.closed ==> sys.s.lastAck == |sys.cfg.packets| && |sys.s.sent| > 0 && sys.s.sent[|sys.s.sent| - 1] == Sentinel
    ensures forall k :: 0 <= k < |sys.s.sent| - 1 ==> sys.s.sent[k] != Sentinel
    ensures !sys.closed ==> forall k :: 0 <= k < |sys.s.sent| ==> sys.s.sent[k] != Sentinel
  {
  }

  /** Once every packet is acknowledged in a well-shaped state, the send loop
      sends nothing more: admission runs past the table and retransmission is
      suppressed. Without `base <= nextSeqNumber` this fails (`OverreachRun`). */
  lemma NoDataAfterAllAcked(sys: System, now: int)
    requires Inv(sys)
    requires WindowShape(sys.cfg, sys.s)
    requires AllAcked(sys.s)
    ensures Next(sys, SendIteration(now)).s.sent == sys.s.sent
    ensures Next(sys, Wake(now)).s.sent == sys.s.sent
  {
  }

  /** The last ACK can arrive while the main loop is in its delay. The
      acknowledgment thread then stops (or restarts) the timer, the shutdown
      still waits, and the timeout check runs on the stopped timer: it adds
      `now - startTime` to the elapsed time and may raise `timeout`, which
      nothing reads any more. The next loop test ends the loop, and the
      shutdown sends the sentinel after all. */
  lemma FinalAckDuringDelay(sys: System, datagram: seq<Byte>, arrival: int, now: int)
    requires !sys.closed && sys.delaying && !AllAcked(sys.s)
    requires AckValue(AckArrival(datagram, arrival)) == sys.s.seqNo - 1
    ensures var a := Next(sys, AckArrival(datagram, arrival));
            && AllAcked(a.s) && a.delaying
            && (sys.s.nextSeq == sys.s.seqNo ==> !a.s.timer.working)
            && Next(a, Shutdown) == a
    ensures var a := Next(sys, AckArrival(datagram, arrival));
            var p := Next(a, Poll(now));
            && p.s.timer.elapsed == a.s.timer.elapsed + (now - a.s.timer.startTime)
            && (p.s.timer.timeout <==> a.s.timer.elapsed + (now - a.s.timer.startTime) >= sys.cfg.rto)
            && p.s.(timer := a.s.timer) == a.s
            && Next(Next(p, LoopTest), Shutdown).closed
            && Next(Next(p, LoopTest), Shutdown).s.sent == a.s.sent + [Sentinel]
  {
  }

  /** A window test followed at once by the wake-up, with no other thread
      running during the sleep, is the fused iteration `SendLoopStep`. */
  lemma SleepThenWake(sys: System, now: int)
    requires !sys.closed && !sys.asleep
    ensures var r := Next(Next(sys, SendIteration(now)), Wake(now));
            && r.s == SendLoopStep(sys.cfg, sys.s, now)
            && !r.asleep && !r.closed
  {
  }

  /** Every data packet the sender puts on the wire is a whole 1024-byte
      packet of the table whose header carries its number. */
  lemma SentDataIsFramed(chunks: seq<seq<Byte>>, window: int, rto: int, events: seq<Event>, k: nat)
    requires ValidReads(chunks)
    requires k < |Run(Startup(chunks, window, rto), events).s.sent|
    requires Run(Startup(chunks, window, rto), events).s.sent[k].Data?
    ensures var n := Run(Startup(chunks, window, rto), events).s.sent[k].seqNum;
            && n <= |chunks|
            && SendPacket(PacketTable(1, chunks), n).Some?
            && |SendPacket(PacketTable(1, chunks), n).value| == PacketLength
            && ParsePacket(SendPacket(PacketTable(1, chunks), n).value).0 == n % SeqSpace
  {
    var sys0 := Startup(chunks, window, rto);
    StartupInv(chunks, window, rto);
    RunKeepsInv(sys0, events);
    var r := Run(sys0, events);
    assert r.s.sent[k].seqNum <= |chunks|;
    TableEntryFramed(chunks, r.s.sent[k].seqNum);
  }

  /** `sendPacket(n)` for a number within the table sends a whole packet
      whose header carries `n`. */
  lemma TableEntryFramed(chunks: seq<seq<Byte>>, n: Pos)
    requires ValidReads(chunks)
    requires n <= |chunks|
    ensures SendPacket(PacketTable(1, chunks), n).Some?
    ensures |SendPacket(PacketTable(1, chunks), n).value| == PacketLength
    ensures ParsePacket(SendPacket(PacketTable(1, chunks), n).value).0 == n % SeqSpace
  {
    var i: nat := (n as int) - 1;
    var p := PacketTable(1, chunks)[i];
    assert SendPacket(PacketTable(1, chunks), n).value == p;
    PacketNumbering(chunks, i);
    assert i + 1 == n as int;
  }

  /** A three-packet transfer with window 2 and no loss: packets 1 and 2 go
      out, ACK 1 makes room for packet 3, ACKs 2 and 3 empty the window and
      stop the timer, and the shutdown sends the sentinel. */
  lemma LosslessThreePackets(chunks: seq<seq<Byte>>)
    requires ValidReads(chunks) && |chunks| == 3
    ensures var r := Run(Startup(chunks, 2, 500), LosslessEvents);
            && r.closed
            && r.s.sent == [Data(1), Data(2), Data(3), Sentinel]
            && !r.s.timer.working
  {
    var sys := Startup(chunks, 2, 500);
    assert sys == System(sys.cfg, Initial(3), false, false, false);
    LosslessRun(sys.cfg);
  }

  /** The events of the lossless three-packet transfer. */
  const LosslessEvents: seq<Event> :=
    [SendIteration(0), SendIteration(1), AckArrival([0, 1], 10),
     SendIteration(11), AckArrival([0, 2], 20), AckArrival([0, 3], 30),
     Shutdown]

  /** Running two sequences of events one after the other is running
      their concatenation. */
  lemma {:induction false} RunAppend(sys: System, first: seq<Event>, second: seq<Event>)
    ensures Run(sys, first + second) == Run(Run(sys, first), second)
    decreases |first|
  {
    if |first| == 0 {
      assert first + second == second;
    } else {
      assert (first + second)[0] == first[0];
      assert (first + second)[1..] == first[1..] + second;
      RunAppend(Next(sys, first[0]), first[1..], second);
    }
  }

  /** `LosslessThreePackets` for any table of three packets: only the
      table's length matters to the protocol. The run is split after the
      first ACK, where packets 1 and 2 are out, packet 1 is acknowledged and
      the timer runs from instant 10. */
  lemma LosslessRun(cfg: Config)
    requires |cfg.packets| == 3 && cfg.window == 2 && cfg.rto == 500
    ensures var r := Run(System(cfg, Initial(3), false, false, false), LosslessEvents);
            && r.closed
            && r.s.sent == [Data(1), Data(2), Data(3), Sentinel]
            && !r.s.timer.working
  {
    var start := System(cfg, Initial(3), false, false, false);
    LosslessFirstAck(cfg);
    LosslessRest(cfg);
    assert LosslessEvents == LosslessEvents[..3] + LosslessEvents[3..];
    RunAppend(start, LosslessEvents[..3], LosslessEvents[3..]);
    assert Run(start, LosslessEvents[..3])
        == System(cfg, State(2, 3, 1, 4, Timer.Timer(true, 0, 10, false), [Data(1), Data(2)]), false, false, false);
  }

  /** Packets 1 and 2 go out and ACK 1 arrives. */
  lemma LosslessFirstAck(cfg: Config)
    requires |cfg.packets| == 3 && cfg.window == 2 && cfg.rto == 500
    ensures Run(System(cfg, Initial(3), false, false, false), LosslessEvents[..3])
            == System(cfg, State(2, 3, 1, 4, Timer.Timer(true, 0, 10, false), [Data(1), Data(2)]), false, false, false)
  {
    var s0 := System(cfg, Initial(3), false, false, false);
    var s1 := Next(s0, SendIteration(0));
    assert s1.s == State(1, 2, 0, 4, Timer.Timer(true, 0, 0, false), [Data(1)]);
    var s2 := Next(s1, SendIteration(1));
    assert s2.s == State(1, 3, 0, 4, Timer.Timer(true, 0, 0, false), [Data(1), Data(2)]);
    var s3 := Next(s2, AckArrival([0, 1], 10));
    assert AckValue(AckArrival([0, 1], 10)) == 1;
    var events := LosslessEvents[..3];
    assert Run(s2, events[2..]) == Run(s3, []);
    assert Run(s1, events[1..]) == Run(s2, events[2..]);
    assert Run(s0, events) == Run(s1, events[1..]);
  }

  /** Packet 3 fills the window, ACKs 2 and 3 empty it, and the shutdown
      sends the sentinel. */
  lemma LosslessRest(cfg: Config)
    requires |cfg.packets| == 3 && cfg.window == 2 && cfg.rto == 500
    ensures var r := Run(System(cfg, State(2, 3, 1, 4, Timer.Timer(true, 0, 10, false), [Data(1), Data(2)]), false, false, false),
                         LosslessEvents[3..]);
            && r.closed
            && r.s.sent == [Data(1), Data(2), Data(3), Sentinel]
            && !r.s.timer.working
  {
    var s3 := System(cfg, State(2, 3, 1, 4, Timer.Timer(true, 0, 10, false), [Data(1), Data(2)]), false, false, false);
    var s4 := Next(s3, SendIteration(11));
    assert s4.s.sent == [Data(1), Data(2), Data(3)] && s4.s.nextSeq == 4;
    var s5 := Next(s4, AckArrival([0, 2], 20));
    assert AckValue(AckArrival([0, 2], 20)) == 2;
    assert s5.s.base == 3;
    var s6 := Next(s5, AckArrival([0, 3], 30));
    assert AckValue(AckArrival([0, 3], 30)) == 3;
    assert s6.s.base == 4 && !s6.s.timer.working && AllAcked(s6.s);
    var s7 := Next(s6, Shutdown);
    assert s7.closed && s7.s.sent == [Data(1), Data(2), Data(3), Sentinel];
    var events := LosslessEvents[3..];
    assert Run(s6, events[3..]) == Run(s7, []);
    assert Run(s5, events[2..]) == Run(s6, events[3..]);
    assert Run(s4, events[1..]) == Run(s5, events[2..]);
    assert Run(s3, events) == Run(s4, events[1..]);
  }

  /** Two packets, window 1, and a receiver that acknowledges what arrives.
      The second window test finds the window full and the sender sleeps;
      on waking it retransmits packets 1 and 2, although 2 was never
      admitted. The receiver's ACK 2 is not stale, yet it sets `base` to 3
      past `nextSeqNumber` 2. Every packet is then acknowledged, and the
      next window test still admits and sends packet 2 again before the
      shutdown sends the sentinel. */
  lemma OverreachRun(chunks: seq<seq<Byte>>)
    requires ValidReads(chunks) && |chunks| == 2
    ensures var r := Run(Startup(chunks, 1, 500), OverreachEvents);
            && AcksNeverBack(Startup(chunks, 1, 500), OverreachEvents)
            && !WellBehaved(Startup(chunks, 1, 500), OverreachEvents)
            && r.s.sent == [Data(1), Data(1), Data(2)]
            && r.s.base == 3 && r.s.nextSeq == 2
            && AllAcked(r.s)
    ensures var r := Run(Startup(chunks, 1, 500), OverreachEvents + [SendIteration(800), Shutdown]);
            && r.closed
            && r.s.sent == [Data(1), Data(1), Data(2), Data(2), Sentinel]
  {
    var sys := Startup(chunks, 1, 500);
    assert sys == System(sys.cfg, Initial(2), false, false, false);
    OverreachFrom(sys.cfg);
  }

  /** The events of `OverreachRun` up to the ACK of the extra packet. */
  const OverreachEvents: seq<Event> :=
    [SendIteration(0), SendIteration(100), Wake(600), AckArrival([0, 2], 700)]

  /** `OverreachRun` for any table of two packets. */
  lemma OverreachFrom(cfg: Config)
    requires |cfg.packets| == 2 && cfg.window == 1 && cfg.rto == 500
    ensures var r := Run(System(cfg, Initial(2), false, false, false), OverreachEvents);
            && AcksNeverBack(System(cfg, Initial(2), false, false, false), OverreachEvents)
            && !WellBehaved(System(cfg, Initial(2), false, false, false), OverreachEvents)
            && r.s.sent == [Data(1), Data(1), Data(2)]
            && r.s.base == 3 && r.s.nextSeq == 2
            && AllAcked(r.s)
    ensures var r := Run(System(cfg, Initial(2), false, false, false), OverreachEvents + [SendIteration(800), Shutdown]);
            && r.closed
            && r.s.sent == [Data(1), Data(1), Data(2), Data(2), Sentinel]
  {
    var s0 := System(cfg, Initial(2), false, false, false);
    var s1 := Next(s0, SendIteration(0));
    assert s1.s.sent == [Data(1)] && s1.s.nextSeq == 2 && s1.s.base == 1 && !s1.asleep;
    var s2 := Next(s1, SendIteration(100));
    assert !CanAdmit(s1.cfg, s1.s);
    assert s2.asleep && s2.s == s1.s;
    var s3 := Next(s2, Wake(600));
    assert SendRange(s2.cfg.packets, 1, 2) == [Data(1), Data(2)];
    assert s3.s.sent == [Data(1), Data(1), Data(2)] && s3.s.nextSeq == 2 && !s3.asleep;
    var s4 := Next(s3, AckArrival([0, 2], 700));
    assert AckValue(AckArrival([0, 2], 700)) == 2;
    assert s4.s.base == 3 && s4.s.nextSeq == 2 && AllAcked(s4.s) && !s4.asleep;
    var s5 := Next(s4, SendIteration(800));
    assert CanAdmit(s4.cfg, s4.s);
    assert s5.s.sent == [Data(1), Data(1), Data(2), Data(2)];
    var s6 := Next(s5, Shutdown);
    assert s6.closed && s6.s.sent == [Data(1), Data(1), Data(2), Data(2), Sentinel];
    var short := OverreachEvents;
    assert Run(s3, short[3..]) == Run(s4, []);
    assert Run(s2, short[2..]) == Run(s3, short[3..]);
    assert Run(s1, short[1..]) == Run(s2, short[2..]);
    assert Run(s0, short) == Run(s1, short[1..]);
    assert !AckOk(s3, short[3]);
    assert !WellBehaved(s3, short[3..]);
    assert !WellBehaved(s2, short[2..]);
    assert !WellBehaved(s1, short[1..]);
    assert AcksNeverBack(s4, []);
    assert AcksNeverBack(s3, short[3..]);
    assert AcksNeverBack(s2, short[2..]);
    assert AcksNeverBack(s1, short[1..]);
    RunAppend(s0, short, [SendIteration(800), Shutdown]);
    assert Run(s5, [Shutdown]) == Run(s6, []);
    assert Run(s4, [SendIteration(800), Shutdown]) == Run(s5, [Shutdown]);
  }

  /** Four packets, window 2. Packets 1 and 2 fill the window and the sender
      sleeps. ACK 1 arrives during the sleep, within the window. On waking,
      `retransmission` reads the new `base` 2 and sends 2, 3 and 4, although
      `nextSeqNumber` is still 3: two packets never admitted. The receiver's
      ACK 4, not stale, then leaves `base` 5 two past `nextSeqNumber` with
      every packet acknowledged. */
  lemma SleepingSenderRun(chunks: seq<seq<Byte>>)
    requires ValidReads(chunks) && |chunks| == 4
    ensures var r := Run(Startup(chunks, 2, 500), SleepingEvents);
            && WellBehaved(Startup(chunks, 2, 500), SleepingEvents)
            && r.s.sent == [Data(1), Data(2), Data(2), Data(3), Data(4)]
            && r.s.base == 2 && r.s.nextSeq == 3
    ensures var r := Run(Startup(chunks, 2, 500), SleepingEvents + [AckArrival([0, 4], 600)]);
            && AcksNeverBack(Startup(chunks, 2, 500), SleepingEvents + [AckArrival([0, 4], 600)])
            && r.s.base == 5 && r.s.nextSeq == 3
            && AllAcked(r.s)
  {
    var sys := Startup(chunks, 2, 500);
    assert sys == System(sys.cfg, Initial(4), false, false, false);
    SleepingFrom(sys.cfg);
  }

  /** The events of `SleepingSenderRun` up to the wake-up. */
  const SleepingEvents: seq<Event> :=
    [SendIteration(0), SendIteration(1), SendIteration(2), AckArrival([0, 1], 300), Wake(502)]

  /** `SleepingSenderRun` for any table of four packets, split where the
      sender has gone to sleep with packets 1 and 2 outstanding. */
  lemma SleepingFrom(cfg: Config)
    requires |cfg.packets| == 4 && cfg.window == 2 && cfg.rto == 500
    ensures var r := Run(System(cfg, Initial(4), false, false, false), SleepingEvents);
            && WellBehaved(System(cfg, Initial(4), false, false, false), SleepingEvents)
            && r.s.sent == [Data(1), Data(2), Data(2), Data(3), Data(4)]
            && r.s.base == 2 && r.s.nextSeq == 3
    ensures var r := Run(System(cfg, Initial(4), false, false, false), SleepingEvents + [AckArrival([0, 4], 600)]);
            && AcksNeverBack(System(cfg, Initial(4), false, false, false), SleepingEvents + [AckArrival([0, 4], 600)])
            && r.s.base == 5 && r.s.nextSeq == 3
            && AllAcked(r.s)
  {
    var s0 := System(cfg, Initial(4), false, false, false);
    var mid := System(cfg, State(1, 3, 0, 5, Timer.Timer(true, 0, 0, false), [Data(1), Data(2)]), false, true, false);
    var head := SleepingEvents[..3];
    var tail := SleepingEvents[3..];
    var ack := [AckArrival([0, 4], 600)];
    SleepingPrefix(cfg);
    SleepingSuffix(cfg);
    assert SleepingEvents == head + tail;
    assert SleepingEvents + ack == head + (tail + ack);
    RunAppend(s0, head, tail);
    RunAppend(s0, head, tail + ack);
    WellBehavedAppend(s0, head, tail);
    AcksNeverBackAppend(s0, head, tail + ack);
    assert Run(s0, head) == mid;
  }

  /** Packets 1 and 2 fill the window and the sender goes to sleep. */
  lemma SleepingPrefix(cfg: Config)
    requires |cfg.packets| == 4 && cfg.window == 2 && cfg.rto == 500
    ensures Run(System(cfg, Initial(4), false, false, false), SleepingEvents[..3])
            == System(cfg, State(1, 3, 0, 5, Timer.Timer(true, 0, 0, false), [Data(1), Data(2)]), false, true, false)
    ensures WellBehaved(System(cfg, Initial(4), false, false, false), SleepingEvents[..3])
    ensures AcksNeverBack(System(cfg, Initial(4), false, false, false), SleepingEvents[..3])
  {
    var s0 := System(cfg, Initial(4), false, false, false);
    var s1 := Next(s0, SendIteration(0));
    assert s1.s == State(1, 2, 0, 5, Timer.Timer(true, 0, 0, false), [Data(1)]) && !s1.asleep;
    var s2 := Next(s1, SendIteration(1));
    assert s2.s == State(1, 3, 0, 5, Timer.Timer(true, 0, 0, false), [Data(1), Data(2)]) && !s2.asleep;
    var s3 := Next(s2, SendIteration(2));
    assert !CanAdmit(s2.cfg, s2.s);
    assert s3.asleep && s3.s == s2.s;
    var events := SleepingEvents[..3];
    assert Run(s2, events[2..]) == Run(s3, []);
    assert Run(s1, events[1..]) == Run(s2, events[2..]);
    assert Run(s0, events) == Run(s1, events[1..]);
    assert WellBehaved(s2, events[2..]) && AcksNeverBack(s2, events[2..]);
    assert WellBehaved(s1, events[1..]) && AcksNeverBack(s1, events[1..]);
  }

  /** ACK 1 arrives during the sleep, the wake-up retransmits 2, 3 and 4,
      and ACK 4 acknowledges them all. */
  lemma SleepingSuffix(cfg: Config)
    requires |cfg.packets| == 4 && cfg.window == 2 && cfg.rto == 500
    ensures var mid := System(cfg, State(1, 3, 0, 5, Timer.Timer(true, 0, 0, false), [Data(1), Data(2)]), false, true, false);
            var r := Run(mid, SleepingEvents[3..]);
            && WellBehaved(mid, SleepingEvents[3..])
            && r.s.sent == [Data(1), Data(2), Data(2), Data(3), Data(4)]
            && r.s.base == 2 && r.s.nextSeq == 3
    ensures var mid := System(cfg, State(1, 3, 0, 5, Timer.Timer(true, 0, 0, false), [Data(1), Data(2)]), false, true, false);
            var r := Run(mid, SleepingEvents[3..] + [AckArrival([0, 4], 600)]);
            && AcksNeverBack(mid, SleepingEvents[3..] + [AckArrival([0, 4], 600)])
            && r.s.base == 5 && r.s.nextSeq == 3
            && AllAcked(r.s)
  {
    var s3 := System(cfg, State(1, 3, 0, 5, Timer.Timer(true, 0, 0, false), [Data(1), Data(2)]), false, true, false);
    var s4 := Next(s3, AckArrival([0, 1], 300));
    assert AckValue(AckArrival([0, 1], 300)) == 1;
    assert s4.s.base == 2 && s4.s.lastAck == 1 && s4.s.nextSeq == 3 && s4.asleep;
    assert s4.s.sent == [Data(1), Data(2)];
    var s5 := Next(s4, Wake(502));
    assert SendRange(s4.cfg.packets, 2, 4) == [Data(2), Data(3), Data(4)];
    assert s5.s.sent == [Data(1), Data(2), Data(2), Data(3), Data(4)];
    assert s5.s.base == 2 && s5.s.nextSeq == 3 && s5.s.lastAck == 1;
    var s6 := Next(s5, AckArrival([0, 4], 600));
    assert AckValue(AckArrival([0, 4], 600)) == 4;
    assert s6.s.base == 5 && AllAcked(s6.s);
    var events := SleepingEvents[3..];
    assert events == [AckArrival([0, 1], 300), Wake(502)];
    assert Run(s4, events[1..]) == Run(s5, []);
    assert Run(s3, events) == Run(s4, events[1..]);
    assert WellBehaved(s4, events[1..]);
    var longer := events + [AckArrival([0, 4], 600)];
    assert longer[1..] == [Wake(502), AckArrival([0, 4], 600)];
    assert longer[2..] == [AckArrival([0, 4], 600)];
    assert Run(s5, longer[2..]) == Run(s6, []);
    assert Run(s4, longer[1..]) == Run(s5, longer[2..]);
    assert Run(s3, longer) == Run(s4, longer[1..]);
    assert AcksNeverBack(s6, []);
    assert AcksNeverBack(s5, longer[2..]);
    assert AcksNeverBack(s4, longer[1..]);
  }

  /** Four packets, window 1. Packet 1 fills the window, and on waking the
      sender resends 1 and also 2, never admitted. It sleeps again, and ACKs
      1 and 2 arrive during that sleep; neither goes backwards. On waking,
      `retransmission` reads `base` 3 and sends 3 and 4, both numbers above
      `nextSeqNumber` 2: every packet of that retransmission was never
      admitted, `windowSizeN + 1` of them. */
  lemma LateAcksRun(chunks: seq<seq<Byte>>)
    requires ValidReads(chunks) && |chunks| == 4
    ensures var r := Run(Startup(chunks, 1, 500), LateAcksEvents);
            && AcksNeverBack(Startup(chunks, 1, 500), LateAcksEvents)
            && r.s.sent == [Data(1), Data(1), Data(2), Data(3), Data(4)]
            && r.s.base == 3 && r.s.nextSeq == 2
            && !AllAcked(r.s)
  {
    var sys := Startup(chunks, 1, 500);
    assert sys == System(sys.cfg, Initial(4), false, false, false);
    LateAcksFrom(sys.cfg);
  }

  const LateAcksEvents: seq<Event> :=
    [SendIteration(0), SendIteration(1), Wake(501), SendIteration(502),
     AckArrival([0, 1], 600), AckArrival([0, 2], 700), Wake(1002)]

  /** `LateAcksRun` for any table of four packets, split where the sender
      has gone to sleep the second time. */
  lemma LateAcksFrom(cfg: Config)
    requires |cfg.packets| == 4 && cfg.window == 1 && cfg.rto == 500
    ensures var r := Run(System(cfg, Initial(4), false, false, false), LateAcksEvents);
            && AcksNeverBack(System(cfg, Initial(4), false, false, false), LateAcksEvents)
            && r.s.sent == [Data(1), Data(1), Data(2), Data(3), Data(4)]
            && r.s.base == 3 && r.s.nextSeq == 2
            && !AllAcked(r.s)
  {
    var s0 := System(cfg, Initial(4), false, false, false);
    var mid := System(cfg, State(1, 2, 0, 5, Timer.Timer(true, 0, 501, false), [Data(1), Data(1), Data(2)]), false, true, false);
    var head := LateAcksEvents[..4];
    var tail := LateAcksEvents[4..];
    LateAcksPrefix(cfg);
    LateAcksSuffix(cfg);
    assert LateAcksEvents == head + tail;
    RunAppend(s0, head, tail);
    AcksNeverBackAppend(s0, head, tail);
    assert Run(s0, head) == mid;
  }

  /** Packet 1 fills the window, the wake-up resends 1 and 2, and the sender
      sleeps again. */
  lemma LateAcksPrefix(cfg: Config)
    requires |cfg.packets| == 4 && cfg.window == 1 && cfg.rto == 500
    ensures Run(System(cfg, Initial(4), false, false, false), LateAcksEvents[..4])
            == System(cfg, State(1, 2, 0, 5, Timer.Timer(true, 0, 501, false), [Data(1), Data(1), Data(2)]), false, true, false)
    ensures AcksNeverBack(System(cfg, Initial(4), false, false, false), LateAcksEvents[..4])
  {
    var s0 := System(cfg, Initial(4), false, false, false);
    var s1 := Next(s0, SendIteration(0));
    assert s1.s == State(1, 2, 0, 5, Timer.Timer(true, 0, 0, false), [Data(1)]) && !s1.asleep;
    var s2 := Next(s1, SendIteration(1));
    assert !CanAdmit(s1.cfg, s1.s);
    assert s2.asleep && s2.s == s1.s;
    var s3 := Next(s2, Wake(501));
    assert SendRange(s2.cfg.packets, 1, 2) == [Data(1), Data(2)];
    assert s3.s == State(1, 2, 0, 5, Timer.Timer(true, 0, 501, false), [Data(1), Data(1), Data(2)]) && !s3.asleep;
    var s4 := Next(s3, SendIteration(502));
    assert !CanAdmit(s3.cfg, s3.s);
    assert s4.asleep && s4.s == s3.s;
    var events := LateAcksEvents[..4];
    assert Run(s3, events[3..]) == Run(s4, []);
    assert Run(s2, events[2..]) == Run(s3, events[3..]);
    assert Run(s1, events[1..]) == Run(s2, events[2..]);
    assert Run(s0, events) == Run(s1, events[1..]);
    assert AcksNeverBack(s3, events[3..]);
    assert AcksNeverBack(s2, events[2..]);
    assert AcksNeverBack(s1, events[1..]);
  }

  /** ACKs 1 and 2 arrive during the second sleep, and the wake-up sends 3
      and 4. */
  lemma LateAcksSuffix(cfg: Config)
    requires |cfg.packets| == 4 && cfg.window == 1 && cfg.rto == 500
    ensures var mid := System(cfg, State(1, 2, 0, 5, Timer.Timer(true, 0, 501, false), [Data(1), Data(1), Data(2)]), false, true, false);
            var r := Run(mid, LateAcksEvents[4..]);
            && AcksNeverBack(mid, LateAcksEvents[4..])
            && r.s.sent == [Data(1), Data(1), Data(2), Data(3), Data(4)]
            && r.s.base == 3 && r.s.nextSeq == 2
            && !AllAcked(r.s)
  {
    var s4 := System(cfg, State(1, 2, 0, 5, Timer.Timer(true, 0, 501, false), [Data(1), Data(1), Data(2)]), false, true, false);
    var s5 := Next(s4, AckArrival([0, 1], 600));
    assert AckValue(AckArrival([0, 1], 600)) == 1;
    assert s5.s.base == 2 && s5.s.lastAck == 1 && s5.s.nextSeq == 2 && s5.asleep;
    var s6 := Next(s5, AckArrival([0, 2], 700));
    assert AckValue(AckArrival([0, 2], 700)) == 2;
    assert s6.s.base == 3 && s6.s.lastAck == 2 && s6.s.nextSeq == 2 && s6.asleep;
    assert s6.s.sent == [Data(1), Data(1), Data(2)];
    var s7 := Next(s6, Wake(1002));
    assert SendRange(s6.cfg.packets, 3, 4) == [Data(3), Data(4)];
    assert s7.s.sent == [Data(1), Data(1), Data(2), Data(3), Data(4)];
    var events := LateAcksEvents[4..];
    assert events == [AckArrival([0, 1], 600), AckArrival([0, 2], 700), Wake(1002)];
    assert Run(s6, events[2..]) == Run(s7, []);
    assert Run(s5, events[1..]) == Run(s6, events[2..]);
    assert Run(s4, events) == Run(s5, events[1..]);
    assert AcksNeverBack(s6, events[2..]);
    assert AcksNeverBack(s5, events[1..]);
  }

  /** A run satisfies `WellBehaved` exactly when both of its parts do, the
      second from where the first leaves off. */
  lemma {:induction false} WellBehavedAppend(sys: System, first: seq<Event>, second: seq<Event>)
    ensures WellBehaved(sys, first + second)
            <==> WellBehaved(sys, first) && WellBehaved(Run(sys, first), second)
    decreases |first|
  {
    if |first| == 0 {
      assert first + second == second;
    } else {
      assert (first + second)[0] == first[0];
      assert (first + second)[1..] == first[1..] + second;
      WellBehavedAppend(Next(sys, first[0]), first[1..], second);
    }
  }

  /** The same for `AcksNeverBack`. */
  lemma {:induction false} AcksNeverBackAppend(sys: System, first: seq<Event>, second: seq<Event>)
    ensures AcksNeverBack(sys, first + second)
            <==> AcksNeverBack(sys, first) && AcksNeverBack(Run(sys, first), second)
    decreases |first|
  {
    if |first| == 0 {
      assert first + second == second;
    } else {
      assert (first + second)[0] == first[0];
      assert (first + second)[1..] == first[1..] + second;
      AcksNeverBackAppend(Next(sys, first[0]), first[1..], second);
    }
  }
}

=== FILE: window.dfy ===
/**
 The shared state of the Go-Back-N sender and the atomic steps the two
 worker threads take on it: the send loop's admission of a new packet, its
 retransmission of the window when the window is full, and the
 acknowledgment thread's processing of one cumulative ACK.

 The socket is abstracted into a trace of what was sent: `Data(n)` for the
 packet with sequence number `n` of the table, `Sentinel` for the two-byte
 end-of-transfer datagram.
 */
module Window {
  import opened Options
  import opened Framing
  import Timer

  /** Sequence numbers: the window fields and the packet counter never go below 1. */
  type Pos = x: int | 1 <= x witness 1

  /** The values fixed at startup: the packet table and the two command-line
      parameters `windowSizeN` and `retransmissionTimeout`. */
  datatype Config = Config(packets: seq<Packet>, window: int, rto: int)

  datatype Wire = Data(seqNum: Pos) | Sentinel

  /** The static fields the threads share, and the trace of sent datagrams. */
  datatype State = State(
    base: Pos,
    nextSeq: Pos,
    lastAck: nat,
    seqNo: Pos,
    timer: Timer.Timer,
    sent: seq<Wire>)

  /** The state once `createAllPackets` has numbered `count` packets. */
  function Initial(count: nat): (s: State)
    ensures s.base == s.lastAck + 1 == s.nextSeq
    ensures s.seqNo - 1 == count
    ensures s.sent == [] && !s.timer.working
  {
    State(1, 1, 0, count + 1, Timer.Initial, [])
  }

  /** `sendPacket`: selects the packet with sequence number `n`, if the table has one. */
  function SendPacket(packets: seq<Packet>, n: Pos): (r: Option<Packet>)
    ensures r.Some? <==> n <= |packets|
    ensures r.Some? ==> r.value == packets[n - 1]
  {
    if n <= |packets| then Some(packets[n - 1]) else None
  }

  /** What one call of `sendPacket(n)` adds to the trace. */
  function Transmit(packets: seq<Packet>, n: Pos): (w: seq<Wire>)
    ensures |w| <= 1
    ensures w == [] <==> SendPacket(packets, n).None?
    ensures forall k :: 0 <= k < |w| ==> w[k] == Data(n)
  {
    match SendPacket(packets, n)
    case Some(_) => [Data(n)]
    case None => []
  }

  function Min(a: int, b: int): (m: int)
    ensures m <= a && m <= b && (m == a || m == b)
  {
    if a <= b then a else b
  }

  function Max(a: int, b: int): (m: int)
    ensures m >= a && m >= b && (m == a || m == b)
  {
    if a <= b then b else a
  }

  /** The trace of `for (i = lo; i <= hi; i++) sendPacket(i)`: exactly the
      numbers from `lo` up to `hi` that name a packet of the table, in
      increasing order. */
  function SendRange(packets: seq<Packet>, lo: Pos, hi: int): (w: seq<Wire>)
    ensures |w| == Max(0, Min(hi, |packets|) - lo + 1)
    ensures forall k :: 0 <= k < |w| ==> w[k] == Data(lo + k)
    decreases hi - lo + 1
  {
    if lo > hi then [] else Transmit(packets, lo) + SendRange(packets, lo + 1, hi)
  }

  /** The send loop's test `nextSeqNumber < base + windowSizeN`. */
  predicate CanAdmit(cfg: Config, s: State)
  {
    s.nextSeq < s.base + cfg.window
  }

  /** The first branch of the send loop: send packet `nextSeqNumber`, start
      the timer if it is the first outstanding one, move `nextSeqNumber` on. */
  function Admit(cfg: Config, s: State, now: int): (r: State)
    requires CanAdmit(cfg, s)
    ensures r.nextSeq == s.nextSeq + 1 <= r.base + cfg.window
    ensures r.base == s.base && r.lastAck == s.lastAck && r.seqNo == s.seqNo
    ensures r.timer == (if s.base == s.nextSeq then Timer.Start(s.timer, now) else s.timer)
    ensures s.nextSeq <= |cfg.packets| ==> r.sent == s.sent + [Data(s.nextSeq)]
    ensures s.nextSeq > |cfg.packets| ==> r.sent == s.sent
  {
    var sent := s.sent + Transmit(cfg.packets, s.nextSeq);
    var timer := if s.base == s.nextSeq then Timer.Start(s.timer, now) else s.timer;
    s.(sent := sent, timer := timer, nextSeq := s.nextSeq + 1)
  }

  /** The condition `lastACK == seqNo - 1` on which the acknowledgment
      thread and the main thread stop. */
  predicate AllAcked(s: State)
  {
    s.lastAck == s.seqNo - 1
  }

  /** `retransmission`. With nothing outstanding it only waits. With every
      packet acknowledged it clears `timeout`. Otherwise it restarts the
      timer and resends the numbers `base` through `base + windowSizeN`,
      inclusive, that name a packet. */
  function Retransmit(cfg: Config, s: State, now: int): (r: State)
    ensures r.base == s.base && r.nextSeq == s.nextSeq && r.lastAck == s.lastAck && r.seqNo == s.seqNo
    ensures s.base == s.nextSeq ==> r == s
    ensures s.base != s.nextSeq && AllAcked(s) ==> r == s.(timer := s.timer.(timeout := false))
    ensures s.base != s.nextSeq && !AllAcked(s) ==>
              && r.timer == Timer.Start(s.timer, now)
              && |r.sent| == |s.sent| + Max(0, Min(s.base + cfg.window, |cfg.packets|) - s.base + 1)
              && r.sent[..|s.sent|] == s.sent
              && forall k :: |s.sent| <= k < |r.sent| ==> r.sent[k] == Data(s.base + (k - |s.sent|))
  {
    if s.base == s.nextSeq then
      s
    else if !AllAcked(s) then
      var started := Timer.Start(s.timer, now);
      var sent := s.sent + SendRange(cfg.packets, s.base, s.base + cfg.window);
      s.(timer := started.(elapsed := 0), sent := sent)
    else
      s.(timer := s.timer.(timeout := false))
  }

  /** One iteration of the send loop in which nothing happens during the
      `sleep` before a retransmission: the window test and `retransmission`
      see the same state. `Transfer` splits the iteration at the sleep. */
  function SendLoopStep(cfg: Config, s: State, now: int): (r: State)
    ensures r.base == s.base && r.lastAck == s.lastAck && r.seqNo == s.seqNo
    ensures r.nextSeq == if CanAdmit(cfg, s) then s.nextSeq + 1 else s.nextSeq
    ensures |s.sent| <= |r.sent| && r.sent[..|s.sent|] == s.sent
  {
    if CanAdmit(cfg, s) then Admit(cfg, s, now) else Retransmit(cfg, s, now)
  }

  /** One iteration of the acknowledgment thread after `receive` returned
      ACK `a`: no check against `lastACK`, the window base follows the ACK,
      and the timer stops when the window is empty and restarts otherwise. */
  function AckStep(s: State, a: nat, now: int): (r: State)
    ensures r.lastAck == a && r.base == a + 1
    ensures r.nextSeq == s.nextSeq && r.seqNo == s.seqNo && r.sent == s.sent
    ensures r.timer.working <==> r.base != r.nextSeq
    ensures r.timer.elapsed == 0
    ensures r.timer.working ==> r.timer.startTime == now
  {
    var base := a + 1;
    var timer := if base == s.nextSeq then Timer.Stop(s.timer) else Timer.Start(s.timer, now);
    s.(lastAck := a, base := base, timer := timer)
  }

  /** The acknowledgment thread's step on a raw datagram: the two-byte buffer, decoded. */
  function ReceiveAck(s: State, datagram: seq<Byte>, now: int): (r: State)
    ensures r.lastAck < SeqSpace && r.base == r.lastAck + 1
    ensures |datagram| >= 2 ==> r.lastAck == (datagram[0] as int) * 256 + (datagram[1] as int)
    ensures r.nextSeq == s.nextSeq && r.seqNo == s.seqNo && r.sent == s.sent
  {
    AckStep(s, DecodeAck(ReceiveBuffer(datagram)), now)
  }

  /** An ACK no older than `lastAck` and below `nextSeqNumber`. This is
      stronger than "acknowledges only what was sent": a full-window
      retransmission also sends packet `nextSeqNumber`, and a correct
      cumulative ACK of it lies outside this range
      (`OverreachAckPassesNextSeq`). */
  predicate AckInWindow(s: State, a: nat)
  {
    s.lastAck <= a < s.nextSeq
  }

  /** At most `windowSizeN` sequence numbers admitted beyond the base. */
  predicate WindowBound(cfg: Config, s: State)
  {
    s.nextSeq - s.base <= cfg.window
  }

  /** The window shape `base <= nextSeq <= base + windowSizeN`. */
  predicate WindowShape(cfg: Config, s: State)
  {
    s.base <= s.nextSeq && WindowBound(cfg, s)
  }

  /** An ACK no older than `lastAck` keeps the bound: the base only moves up. */
  lemma AckNotStaleKeepsBound(cfg: Config, s: State, a: nat, now: int)
    requires s.base == s.lastAck + 1
    requires WindowBound(cfg, s)
    requires s.lastAck <= a
    ensures s.base <= AckStep(s, a, now).base
    ensures WindowBound(cfg, AckStep(s, a, now))
  {
  }

  /** An ACK inside the window moves the base forward, never past
      `nextSeqNumber`, and keeps the window shape. */
  lemma AckInWindowAdvances(cfg: Config, s: State, a: nat, now: int)
    requires s.base == s.lastAck + 1
    requires WindowShape(cfg, s)
    requires AckInWindow(s, a)
    ensures s.base <= AckStep(s, a, now).base <= AckStep(s, a, now).nextSeq
    ensures WindowShape(cfg, AckStep(s, a, now))
  {
  }

  /** There is no stale-ACK guard: an ACK older than `lastAck` moves the base
      back, which reopens the window beyond `windowSizeN` packets. */
  lemma StaleAckMovesBaseBack(cfg: Config, s: State, a: nat, now: int)
    requires s.base == s.lastAck + 1
    requires a < s.lastAck
    ensures AckStep(s, a, now).base < s.base
    ensures s.nextSeq == s.base + cfg.window ==> !WindowShape(cfg, AckStep(s, a, now))
  {
  }

  /** A repeated ACK leaves the window where it was, but unless the window
      is empty it restarts the timer. */
  lemma DuplicateAck(s: State, a: nat, now1: int, now2: int)
    ensures var once := AckStep(s, a, now1);
            var twice := AckStep(once, a, now2);
            && twice.base == once.base && twice.lastAck == once.lastAck
            && twice.nextSeq == once.nextSeq && twice.sent == once.sent
            && (twice.base != twice.nextSeq ==> twice.timer.startTime == now2)
  {
  }

  /** Admission keeps the window shape. */
  lemma AdmitKeepsShape(cfg: Config, s: State, now: int)
    requires WindowShape(cfg, s)
    requires CanAdmit(cfg, s)
    ensures WindowShape(cfg, Admit(cfg, s, now))
    ensures Admit(cfg, s, now).base < Admit(cfg, s, now).nextSeq
  {
  }

  /** When an iteration finds the window full and nothing happens during its
      sleep, the retransmission also sends `nextSeqNumber` itself, a packet
      never admitted: `base + windowSizeN` is included in the loop's range.
      With enough packets left, `windowSizeN + 1` packets go out. */
  lemma RetransmitOverreach(cfg: Config, s: State, now: int)
    requires s.base == s.lastAck + 1
    requires WindowShape(cfg, s)
    requires !CanAdmit(cfg, s)
    requires s.base != s.nextSeq && !AllAcked(s)
    requires s.nextSeq <= |cfg.packets|
    ensures s.nextSeq == s.base + cfg.window
    ensures var r := SendLoopStep(cfg, s, now);
            && |r.sent| == |s.sent| + cfg.window + 1
            && r.sent[|r.sent| - 1] == Data(s.nextSeq)
  {
  }

  /** The packet a full-window retransmission sends beyond the window is
      `nextSeqNumber`; a receiver that acknowledges it moves the base past
      `nextSeqNumber`, because the ACK thread sets `base` to the ACK plus one
      without comparing it with `nextSeqNumber`. The ACK is not stale. */
  lemma OverreachAckPassesNextSeq(cfg: Config, s: State, now: int, later: int)
    requires s.base == s.lastAck + 1
    requires WindowShape(cfg, s)
    requires !CanAdmit(cfg, s)
    requires s.base != s.nextSeq && !AllAcked(s)
    requires s.nextSeq <= |cfg.packets|
    ensures var r := SendLoopStep(cfg, s, now);
            && r.nextSeq == s.nextSeq
            && r.sent[|r.sent| - 1] == Data(r.nextSeq)
            && r.lastAck <= r.nextSeq
            && AckStep(r, r.nextSeq, later).base == r.nextSeq + 1
            && !WindowShape(cfg, AckStep(r, r.nextSeq, later))
  {
    RetransmitOverreach(cfg, s, now);
  }

  /** A retransmission sends `base` through `base + windowSizeN` without
      looking at `nextSeqNumber`. When ACKs during the sleep have moved `base`
      up but not past `nextSeqNumber`, the last
      `base + windowSizeN - nextSeqNumber + 1` packets sent are numbers never
      admitted; `RetransmitPastNextSeq` is the case past it. */
  lemma RetransmitBeyondNextSeq(cfg: Config, s: State, now: int)
    requires s.base < s.nextSeq && !AllAcked(s)
    requires s.nextSeq <= s.base + cfg.window <= |cfg.packets|
    ensures var r := Retransmit(cfg, s, now);
            var unadmitted := s.base + cfg.window - s.nextSeq + 1;
            && |r.sent| == |s.sent| + cfg.window + 1
            && r.nextSeq == s.nextSeq
            && (forall k :: |r.sent| - unadmitted <= k < |r.sent| ==> r.sent[k].Data? && r.sent[k].seqNum >= s.nextSeq)
            && (forall k :: |s.sent| <= k < |r.sent| - unadmitted ==> r.sent[k].Data? && r.sent[k].seqNum < s.nextSeq)
  {
  }

  /** When the ACKs during the sleep have moved `base` past `nextSeqNumber`,
      every packet of the retransmission is one never admitted: all
      `windowSizeN + 1` of them carry numbers above `nextSeqNumber`. */
  lemma RetransmitPastNextSeq(cfg: Config, s: State, now: int)
    requires s.nextSeq < s.base && !AllAcked(s)
    requires 0 <= cfg.window && s.base + cfg.window <= |cfg.packets|
    ensures var r := Retransmit(cfg, s, now);
            && |r.sent| == |s.sent| + cfg.window + 1
            && r.nextSeq == s.nextSeq
            && forall k :: |s.sent| <= k < |r.sent| ==> r.sent[k].Data? && r.sent[k].seqNum > s.nextSeq
  {
  }

  /** Retransmission resends nothing already acknowledged and, when the base
      has a packet, starts with the base itself. */
  lemma RetransmitFromBase(cfg: Config, s: State, now: int)
    requires s.base == s.lastAck + 1
    requires s.base != s.nextSeq && !AllAcked(s)
    requires s.base <= |cfg.packets|
    requires cfg.window >= 0
    ensures var r := Retransmit(cfg, s, now);
            && |r.sent| > |s.sent|
            && r.sent[|s.sent|] == Data(s.base)
            && forall k :: |s.sent| <= k < |r.sent| ==> r.sent[k].seqNum > s.lastAck
  {
  }
}
